=== FILE: README.md ===
# LightsDebugger core in Dafny

This project models the core of LightsDebugger. LightsDebugger is a console tool that drives a bank of 30 LED channels over a serial link. The model covers four parts:

- **One channel** (`LedChannel`, `src/LED.cpp`). A channel has an id, a peak wavelength, a maximum radiation, and two byte-valued controls: the current intensity and a ceiling (`maxIntensity`). The randomizer uses the ceiling.
- **The bank** (`LedController`, `src/LEDController.cpp`). The bank holds the fixed 30-entry table. It supports lookup by id and by exact peak, `randomizeAll`, and the intensity snapshot. It also persists the ceilings as a text file of `"<id> <max>\n"` lines.
- **The command handlers** (`CliApp`, `src/CLIApp.cpp`). These are the handlers that frame and send packets: `send`, the empty command and `do N`. They also include the handlers that change the bank: `set`, `setm`, `seta` and `setma`. Every packet is `0xDA 0xAD` followed by the 30 intensity bytes.
- **The command dispatcher** (`CommandParser`, `src/CommandParser.cpp`). It splits a line into whitespace-separated words and dispatches through a name-to-handler table. It also has an optional error handler.

Two support modules sit underneath:

- `Common` holds `byte`, the `unsigned char` cast (`ToByte`, reduction mod 256), the 32-bit `int` range and `Option`.
- `Text` holds the C library conversions the source relies on:
  - `operator<<` for `int`;
  - `istream >> int` and `std::stoi`, as `ReadInt`;
  - `std::stof` on plain decimal text, as `ReadReal`.

Everything is pure functions over immutable values, except the loop of `do`, which is a method with loop invariants.

**Modelling choices**

- **Randomness.** `rand()` becomes an explicit input `draw: nat -> nat`, giving the value drawn for the channel at each position. `do N` takes one such function per round.
- **Serial port.** The port is an oracle: whether it is open, and whether each `sendData` call succeeds.
- **Files.** Files are strings. A file that cannot be opened is `None`.
- **Uncaught exceptions.** The handlers call `std::stoi`/`std::stof` outside their `try` blocks, so a malformed number escapes as an exception. The model reports this as `Uncaught` and leaves the bank unchanged. Every conversion in the source happens before any channel is written, so this matches the source.

## Model

| member | source | states |
|---|---|---|
| Common.ToByte | src/LEDController.cpp:146 | the `unsigned char` cast keeps the value mod 256, and keeps values 0..255 unchanged |
| Text.ReadInt | src/LEDController.cpp:142 | an integer read never yields a value outside the 32-bit `int` range and always consumes input |
| Text.ReadIntOfText | src/LEDController.cpp:131 | reading back an `int` written by `operator<<` gives the same value and stops right after its digits |
| Text.ReadRealInRange | src/CLIApp.cpp:172 | `std::stof` returns a value exactly when the text after the blanks and the sign writes a decimal number that is zero or lies within the magnitudes of `float`, from `FLT_MIN` up to where rounding reaches infinity; the value is that number with the sign; any other text throws |
| Text.ReadRealOfText | src/CLIApp.cpp:172 | an integer's decimal text of magnitude at most 2^24, every one of which is a `float` exactly, reads as exactly that integer |
| Text.DecimalOfPoint | src/CLIApp.cpp:172 | a word of digits, a point and more digits writes its integer part plus the fraction that the digits after the point denote |
| Text.ReadRealOfDecimal | src/CLIApp.cpp:172 | `std::stof` reads such a word as exactly that decimal when it is in the range of `float`, and throws otherwise |
| Text.ReadRealOfHugeText | src/CLIApp.cpp:172 | an integer's decimal text at or beyond the overflow threshold of `float` does not read: `std::stof` throws `std::out_of_range` |
| LedChannel.NewLed | src/LED.cpp:3-16 | a new channel has intensity 0 and ceiling 255; an infrared channel (peak 0) has ceiling 0; the identity fields are as given |
| LedChannel.SetIntensity | src/LED.cpp:23-26 | the intensity becomes exactly the value; ceiling and identity are kept |
| LedChannel.SetIntensityDoesNotClamp | src/LED.cpp:23-26 | storing an intensity above the ceiling leaves it above the ceiling |
| LedChannel.SetMaxIntensity | src/LED.cpp:33-36 | the ceiling becomes exactly the value; intensity and identity are kept |
| LedChannel.StoreThenRead | src/LED.cpp:23-36 | a stored control reads back as stored, and the other control is untouched |
| LedChannel.RandomizeIntensity | src/LED.cpp:38-42 | the new intensity never exceeds the ceiling, equals any draw up to the ceiling, and identity and ceiling are kept |
| LedChannel.RandomizeIntensityPeriodic | src/LED.cpp:38-42 | draws `maxIntensity + 1` apart give the same intensity; with the identity for draws up to the ceiling, this fixes every draw's outcome as `rand() % (maxIntensity + 1)` |
| LedChannel.RandomizeUnderZeroCeiling | src/LED.cpp:41 | with ceiling 0 the randomized intensity is always 0 |
| LedChannel.RandomizeReachesExactlyUpToCeiling | src/LED.cpp:38-42 | a level is the outcome of some draw if and only if it lies in 0..ceiling |
| LedController.InitialBank | src/LEDController.cpp:4-50 | the bank has 30 channels in table order; position i has id i+1, intensity 0, and ceiling 0 if infrared, 255 otherwise |
| LedController.FindById | src/LEDController.cpp:52-62 | the result is the first position with that id, and there is none exactly when no channel has the id |
| LedController.ShapedFindById | src/LEDController.cpp:52-62 | on the table's bank, id x is found at position x-1 for 1 <= x <= 30 and is not found otherwise |
| LedController.FindByPeak | src/LEDController.cpp:76-86 | the result is the first position whose peak equals the given peak exactly, and there is none exactly when no channel has it |
| LedController.TablePeaksDistinct | src/LEDController.cpp:12-43 | no two table entries share a peak |
| LedController.TablePeaksIntegral | src/LEDController.cpp:12-43 | every table peak is a whole number of nanometres |
| LedController.ShapedFindFractionalPeak | src/LEDController.cpp:76-86 | on the table's bank, a peak with a fractional part matches no channel |
| LedController.ShapedFindByPeak | src/LEDController.cpp:76-86 | on the table's bank, each entry's peak resolves to that entry's position |
| LedController.ShapedSpecialPeaks | src/LEDController.cpp:76-86 | peak 0 resolves to id 26 and peak -1 to id 30 |
| LedController.StoreAt | src/LEDController.cpp:52-62 | writing through a found channel changes that channel only |
| LedController.StoreById | src/LEDController.cpp:52-62 | a write by id changes only the found channel's chosen control, changes nothing for an unknown id, and never changes an identity |
| LedController.ShapedStoreById | src/LEDController.cpp:52-62 | on the table's bank, a write by id x changes exactly position x-1 for 1 <= x <= 30 and nothing otherwise; the bank keeps its table shape |
| LedController.RandomizeAll | src/LEDController.cpp:100-110 | infrared channels are unchanged; every other channel is randomized within its ceiling; no identity or ceiling changes |
| LedController.RandomizeAllKeepsShape | src/LEDController.cpp:100-110 | randomizing keeps the bank's table shape |
| LedController.RandomizeAllReachesEveryPattern | src/LEDController.cpp:100-110 | every pattern with each non-infrared channel within its ceiling is produced by some draws |
| LedController.IntensityData | src/LEDController.cpp:112-122 | the snapshot has one byte per channel; byte i is channel i's intensity |
| LedController.SaveText | src/LEDController.cpp:129-132 | the saved file holds one newline-terminated line per channel, and is empty only for an empty bank |
| LedController.SaveMaxIntensities | src/LEDController.cpp:124-134 | saving fails exactly when the file cannot be opened |
| LedController.ReadPair | src/LEDController.cpp:141-142 | reading an id and a value consumes input |
| LedController.LoadText | src/LEDController.cpp:141-153 | loading changes no identity and no intensity, only ceilings |
| LedController.LoadMaxIntensities | src/LEDController.cpp:136-155 | loading fails exactly when the file cannot be opened, and then changes nothing |
| LedController.LoadSkipsSpace | src/LEDController.cpp:142 | leading whitespace does not change what is loaded |
| LedController.LoadLine | src/LEDController.cpp:142-153 | one `"<id> <v>\n"` line stores v mod 256 as the ceiling of channel id, then loading continues |
| LedController.LoadSkipsUnknownId | src/LEDController.cpp:144-152 | a line with an unknown id is skipped without ending the load |
| LedController.LoadStopsAtWord | src/LEDController.cpp:142 | loading stops at the first non-integer word, whether it stands in the id or the value position |
| LedController.SaveTextStep | src/LEDController.cpp:129-132 | the saved text is channel k's `"<id> <max>\n"` line followed by the lines of the later channels, in table order |
| LedController.SaveLoadRoundTrip | src/LEDController.cpp:124-155 | loading the text saved from one table bank into another gives every channel exactly the saved ceiling and changes nothing else |
| CommandParser.WordRun | src/CommandParser.cpp:13-21 | the run stops exactly at the first whitespace character |
| CommandParser.Words | src/CommandParser.cpp:13-21 | every word produced is non-empty and contains no whitespace |
| CommandParser.WordsOfWordThen | src/CommandParser.cpp:13-21 | a word ends at any whitespace character and at the end of the line: it is produced whole, then the words of what follows |
| CommandParser.WordsOfWord | src/CommandParser.cpp:13-21 | a line holding one word and nothing else yields exactly that word |
| CommandParser.WordsAfterSpaces | src/CommandParser.cpp:13-21 | any run of whitespace before the text changes no word |
| CommandParser.WordsOfLayout | src/CommandParser.cpp:13-21 | words separated by any non-empty runs of whitespace, with any whitespace before and after, split back into exactly those words |
| CommandParser.WordsOfUnwords | src/CommandParser.cpp:13-21 | words joined by single spaces split back into exactly those words |
| CommandParser.ConcatWords | src/CommandParser.cpp:13-21 | the words together are exactly the input's non-whitespace characters, in order |
| CommandParser.Split | src/CommandParser.cpp:13-21 | the command and every argument are words, or the command is `""` |
| CommandParser.BlankInput | src/CommandParser.cpp:13-15 | an empty or all-whitespace line gives command `""` with no arguments |
| CommandParser.RegisterCommand | src/CommandParser.cpp:4-8 | the name now maps to the new handler; other names and the error handler are kept |
| CommandParser.LaterRegistrationWins | src/CommandParser.cpp:7 | registering a name twice is the same as registering only the later handler |
| CommandParser.SetErrorHandler | src/CommandParser.cpp:35-39 | the error handler becomes the given one, or none for an empty `std::function`, and the table is kept |
| CommandParser.ParseAndExecute | src/CommandParser.cpp:10-33 | answers true exactly for a registered command, and then calls that command's handler on the remaining words; otherwise the error handler, if there is one, is called with `{cmd}` |
| CommandParser.RegisteredCommandRuns | src/CommandParser.cpp:22-27 | after registering a name, a line naming it runs that handler on the other words and answers true |
| CommandParser.UnknownCommandReachesErrorHandler | src/CommandParser.cpp:28-32 | an unregistered command answers false and calls the error handler once with just that word |
| CommandParser.UnknownCommandWithoutErrorHandler | src/CommandParser.cpp:28-32 | without an error handler an unregistered command answers false and calls nothing |
| CliApp.Frame | src/CLIApp.cpp:88-92 | a packet is the two magic bytes followed by exactly the data |
| CliApp.PacketLayout | src/CLIApp.cpp:289-293 | the packet of the table's bank is 32 bytes, with channel i's intensity at offset i+2 |
| CliApp.HandleSend | src/CLIApp.cpp:280-309 | `send` never changes the bank; with the port closed nothing is sent; otherwise exactly the current packet is sent |
| CliApp.HandleEmpty | src/CLIApp.cpp:78-108 | the empty command randomizes whether or not the port is open, then behaves as `send` on the randomized bank |
| CliApp.TraceAt | src/CLIApp.cpp:320-328 | the k-th packet of a run of rounds is framed from the state after round k+1 |
| CliApp.SendRounds | src/CLIApp.cpp:320-343 | the loop of `do`: it completes max(N,0) rounds or stops at the first closed port or refused send; it reports only accepted rounds; packets and bank follow the rounds actually run |
| CliApp.HandleDo | src/CLIApp.cpp:311-344 | `do` with a bad word count prints usage; an unreadable count is an uncaught error; otherwise N rounds, or a closed port found in the first of at least one round, or a refused send in round k < N, with the bank and packets of the rounds run |
| CliApp.RoundsKeepCeilings | src/CLIApp.cpp:320-322 | repeated randomizing keeps identities and ceilings and infrared channels, and leaves every other channel within its ceiling |
| CliApp.DoPacketsWithinCeilings | src/CLIApp.cpp:320-336 | every packet `do` sends for the table's bank is 32 bytes, with each non-infrared byte within its channel's ceiling |
| CliApp.ParseTarget | src/CLIApp.cpp:154-172 | a word longer than one character that starts with `l` addresses by id, and every other word that reads addresses a peak |
| CliApp.ParseIdText | src/CLIApp.cpp:154-157 | `l` followed by an `int`'s text addresses exactly that id |
| CliApp.ParsePeakText | src/CLIApp.cpp:169-172 | an integer's text of magnitude at most 2^24 addresses that integer as a peak; an integer's text at or beyond the overflow threshold of `float` throws |
| CliApp.ParseDecimalPeak | src/CLIApp.cpp:169-172 | a word of digits, a point and more digits addresses the decimal it writes as a peak, and throws when that decimal is outside the range of `float` |
| CliApp.Locate | src/CLIApp.cpp:161 | a located channel is a position of the bank |
| CliApp.SetOne | src/CLIApp.cpp:151-188 | `set`/`setm` print usage exactly when there are not three words, throw uncaught exactly when the target or value does not read, report a missing channel exactly when both read but no channel matches, and succeed otherwise; then only that channel's chosen control changes, to the value mod 256; otherwise nothing changes |
| CliApp.HandleSet | src/CLIApp.cpp:151-188 | `set` prints usage exactly when there are not three words, throws uncaught exactly when the target or value does not read, reports a missing channel exactly when both read but no channel matches, and otherwise sets that one channel's intensity to the value mod 256, keeping its ceiling and every other channel |
| CliApp.HandleSetM | src/CLIApp.cpp:234-271 | `setm` behaves as `set`, except that the located channel's ceiling becomes the value mod 256 and its intensity is kept |
| CliApp.SetOneOfParsed | src/CLIApp.cpp:159-167 | once the words are read, an unknown channel changes nothing and a known one gets the value mod 256 |
| CliApp.SetIdOnShapedBank | src/CLIApp.cpp:154-168 | `set l<x> y` changes only channel x's intensity, to y mod 256; an x outside 1..30 changes nothing |
| CliApp.SetMIdOnShapedBank | src/CLIApp.cpp:237-251 | `setm l<x> y` changes only channel x's ceiling, to y mod 256, and keeps its intensity |
| CliApp.SetPeakText | src/CLIApp.cpp:169-183 | for an integral peak of magnitude at most 2^24, `set <peak> y` changes only the first channel with exactly that peak, its intensity to y mod 256, and an unmatched peak changes nothing; a peak beyond the range of `float` is an uncaught error that changes nothing |
| CliApp.SetMPeakText | src/CLIApp.cpp:252-266 | for an integral peak of magnitude at most 2^24, `setm <peak> y` changes only the first channel with exactly that peak, its ceiling to y mod 256, keeping its intensity, and an unmatched peak changes nothing; a peak beyond the range of `float` is an uncaught error that changes nothing |
| CliApp.SetOneOfFractionalPeak | src/CLIApp.cpp:169-183 | on the table's bank, `set` or `setm` whose target reads as a peak with a fractional part reports that no LED has it and changes nothing |
| CliApp.SetBetweenPeaks | src/CLIApp.cpp:169-183 | on the table's bank, `set 405.5 y` and `setm 405.5 y` report that no LED has that peak and change nothing |
| CliApp.StoreIds | src/CLIApp.cpp:199-208 | every channel that ids 1..n reach gets the value; every other channel stays as it was |
| CliApp.SetAll | src/CLIApp.cpp:190-210 | `seta`/`setma` succeed exactly when the value reads; then every channel reached by ids 1..30 gets the value mod 256 |
| CliApp.HandleSetA | src/CLIApp.cpp:190-210 | `seta` prints usage exactly when there are not two words, throws uncaught exactly when the value does not read, and otherwise sets the intensity of every channel ids 1..30 reach to the value mod 256, keeping every ceiling |
| CliApp.HandleSetMA | src/CLIApp.cpp:212-232 | `setma` behaves as `seta`, except that the ceilings change and the intensities are kept |
| CliApp.StoreAllIds | src/CLIApp.cpp:199-208 | on the table's bank, ids 1..30 reach every channel |
| CliApp.SetAOnShapedBank | src/CLIApp.cpp:198-208 | `seta v` sets every channel's intensity to v mod 256 and keeps its ceiling |
| CliApp.SetMAOnShapedBank | src/CLIApp.cpp:220-230 | `setma v` sets every channel's ceiling to v mod 256 and keeps its intensity |

## Left out

- `src/SerialInterface.cpp` (Win32 `CreateFileA`/`SetCommState`/`WriteFile`) is not part of this model. The port is an oracle: whether it is open, and the result of each `sendData`.
- Console I/O is left out: `run()`'s line loop, every `std::cout` message, and the hexadecimal debug dump of each packet. The categories of those messages are kept in `CliApp.Report`.
- `handleLS`, `handleHelp`, `handleClear` and `handleSetCom` are left out. They are presentation, or port opening (I/O).
- `handleRandom`, `handleSave` and `handleLoad` are thin wrappers over `RandomizeAll`, `SaveMaxIntensities` and `LoadMaxIntensities`, so they have no separate model.
- The one-second pause between rounds of `do` is left out. It is timing only.
- `rand()` itself is left out. The model takes the drawn values as inputs, one per channel position; the source calls `rand()` only for non-infrared channels, in bank order.
- `lock`/`unlock` and `setPortName`/`getPortName` are declared but never defined, so there is no behaviour to model.
- CliApp.ParseTarget: reads the peak as an exact decimal. The source rounds it to `float`, so a text such as `405.00000001` matches a table peak there but not here.
- CliApp.ParseTarget: the exponent, hexadecimal, `inf` and `nan` forms `std::stof` accepts are not modelled. An exponent is ignored (`1e5` reads as 1), a hexadecimal number reads as its leading `0`, and `inf`/`nan` do not read.
- Text.ReadReal: the C standard leaves it to the library whether `strtof` reports `ERANGE` on underflow. The model takes every nonzero magnitude below `FLT_MIN` as out of range, so `std::stof` throws for it. A library that accepts exactly representable subnormal values differs only on such values.
- CommandParser.RegisterCommand: handlers are assumed non-empty. Registering an empty `std::function` and then calling it throws `std::bad_function_call` in the source; the model has no such outcome.
- LedChannel.Led: the maximum radiation is informational, and it and the peak are exact reals rather than `float`s; every table value is integral.

=== FILE: CliApp.dfy ===
/** The command handlers of the console application (src/CLIApp.cpp) that
    frame and send packets or change the bank. The serial port is an oracle:
    whether it is open, and whether each `sendData` call is accepted. The
    value `rand()` returns is an oracle too. */
module CliApp {
  import opened Common
  import opened Text
  import opened LedChannel
  import opened LedController

  /** The two magic bytes every packet starts with. */
  const Header: seq<byte> := [0xDA, 0xAD]

  /** The wire packet: the magic bytes, then the intensity bytes. */
  function Frame(data: seq<byte>): (p: seq<byte>)
    ensures |p| == |data| + 2
    ensures p[..2] == Header
    ensures p[2..] == data
  {
    Header + data
  }

  /** The packet the handlers build from the bank's current intensities. */
  function Packet(b: Bank): seq<byte> {
    Frame(IntensityData(b))
  }

  /** The category of what a handler prints: `Done` for its `[Info]` line
      (or silence), `Usage` for its `[Usage]` line, `PortClosed`, `SendFailed`
      and `NoSuchLed` for its `[Error]` lines, and `Uncaught` where the
      source lets an exception from `std::stoi`/`std::stof` escape. */
  datatype Report = Done | Usage | PortClosed | SendFailed | NoSuchLed | Uncaught

  /** The bank after a command, the packets handed to `sendData` in order,
      and the report. */
  datatype Outcome = Outcome(bank: Bank, sent: seq<seq<byte>>, report: Report)

  /** `send`: frame the current intensities and send them, if the port is
      open; `accepted` is what `sendData` returns. */
  function HandleSend(b: Bank, portOpen: bool, accepted: bool): (r: Outcome)
    ensures r.bank == b
    ensures !portOpen ==> r.sent == [] && r.report == PortClosed
    ensures portOpen ==> r.sent == [Packet(b)]
    ensures portOpen ==> (r.report == Done <==> accepted)
    ensures r.report in {Done, PortClosed, SendFailed}
  {
    if !portOpen then Outcome(b, [], PortClosed)
    else Outcome(b, [Packet(b)], if accepted then Done else SendFailed)
  }

  /** The empty command: randomize, then do what `send` does. The
      randomization happens before the port is checked, so it sticks even
      when nothing can be sent. */
  function HandleEmpty(b: Bank, draw: nat -> nat, portOpen: bool, accepted: bool): (r: Outcome)
    ensures r.bank == RandomizeAll(b, draw)
    ensures r.sent == HandleSend(r.bank, portOpen, accepted).sent
    ensures r.report == HandleSend(r.bank, portOpen, accepted).report
  {
    var randomized := RandomizeAll(b, draw);
    if !portOpen then Outcome(randomized, [], PortClosed)
    else Outcome(randomized, [Packet(randomized)], if accepted then Done else SendFailed)
  }

  /** The state after `n` rounds, round `k` applying `step(·, k)`. */
  function Iterate<S>(s: S, step: (S, nat) -> S, n: nat): S {
    if n == 0 then s else step(Iterate(s, step, n - 1), n - 1)
  }

  /** The packets of the first `n` rounds, each framed from the state that round produced. */
  function Trace<S>(s: S, step: (S, nat) -> S, packet: S -> seq<byte>, n: nat): (ps: seq<seq<byte>>)
    ensures |ps| == n
  {
    if n == 0 then [] else Trace(s, step, packet, n - 1) + [packet(Iterate(s, step, n))]
  }

  /** Packet `k` of a trace is the one framed after round `k`. */
  lemma {:induction false} TraceAt<S>(s: S, step: (S, nat) -> S, packet: S -> seq<byte>, n: nat, k: nat)
    requires k < n
    ensures Trace(s, step, packet, n)[k] == packet(Iterate(s, step, k + 1))
  {
    if k < n - 1 {
      TraceAt(s, step, packet, n - 1, k);
    }
  }

  function Max0(n: int): nat {
    if n < 0 then 0 else n
  }

  /** The loop of `do`: up to `count` rounds of step, frame, send, stopping
      at the first round whose port is closed or whose send is refused;
      `accepted(k)` is what the k-th `sendData` call returns. `completed`
      counts the rounds reported as sent. */
  method SendRounds<S>(s: S, step: (S, nat) -> S, packet: S -> seq<byte>, count: int, portOpen: bool, accepted: nat -> bool)
    returns (state: S, sent: seq<seq<byte>>, report: Report, completed: nat)
    ensures report in {Done, PortClosed, SendFailed}
    ensures completed > 0 ==> portOpen
    ensures forall k :: 0 <= k < completed ==> accepted(k)
    ensures report == Done ==>
      completed == Max0(count) && state == Iterate(s, step, completed) && sent == Trace(s, step, packet, completed)
    ensures report == PortClosed ==>
      !portOpen && completed == 0 < count && state == Iterate(s, step, 1) && sent == []
    ensures report == SendFailed ==>
      portOpen && completed < count && !accepted(completed)
      && state == Iterate(s, step, completed + 1) && sent == Trace(s, step, packet, completed + 1)
  {
    state := s;
    sent := [];
    var i: nat := 0;
    while i < count
      invariant i <= Max0(count)
      invariant state == Iterate(s, step, i)
      invariant sent == Trace(s, step, packet, i)
      invariant i > 0 ==> portOpen
      invariant forall k :: 0 <= k < i ==> accepted(k)
    {
      state := step(state, i);
      var p := packet(state);
      if !portOpen {
        return state, sent, PortClosed, i;
      }
      sent := sent + [p];
      if !accepted(i) {
        return state, sent, SendFailed, i;
      }
      i := i + 1;
    }
    return state, sent, Done, i;
  }

  /** One round of `do`: `randomizeAll` with the random values of round `k`. */
  function Round(draws: nat -> nat -> nat): (Bank, nat) -> Bank {
    (bank: Bank, k: nat) => RandomizeAll(bank, draws(k))
  }

  /** `do N`: `N` is read by `std::stoi`, then up to `N` rounds of
      randomize, frame and send. `draws(k)` are the random values of round
      `k`; the bank keeps the randomization of the round that stopped the loop. */
  method HandleDo(b: Bank, args: seq<string>, draws: nat -> nat -> nat, portOpen: bool, accepted: nat -> bool)
    returns (r: Outcome, completed: nat)
    ensures |args| != 2 ==> r == Outcome(b, [], Usage) && completed == 0
    ensures |args| == 2 && ReadInt(args[1]).None? ==> r == Outcome(b, [], Uncaught) && completed == 0
    ensures |args| == 2 && ReadInt(args[1]).Some? ==> r.report in {Done, PortClosed, SendFailed}
    ensures |args| == 2 && ReadInt(args[1]).Some? && r.report == Done ==>
      completed == Max0(ReadInt(args[1]).value.0)
      && r.bank == Iterate(b, Round(draws), completed) && r.sent == Trace(b, Round(draws), Packet, completed)
    ensures r.report == PortClosed ==>
      !portOpen && 0 < ReadInt(args[1]).value.0 && r.bank == RandomizeAll(b, draws(0)) && r.sent == []
    ensures r.report == SendFailed ==>
      portOpen && completed < ReadInt(args[1]).value.0 && !accepted(completed)
      && r.bank == Iterate(b, Round(draws), completed + 1) && r.sent == Trace(b, Round(draws), Packet, completed + 1)
    ensures completed > 0 ==> portOpen
    ensures forall k :: 0 <= k < completed ==> accepted(k)
  {
    if |args| != 2 {
      return Outcome(b, [], Usage), 0;
    }
    var parsed := ReadInt(args[1]);
    if parsed.None? {
      return Outcome(b, [], Uncaught), 0;
    }
    var bank, sent, report;
    bank, sent, report, completed := SendRounds(b, Round(draws), Packet, parsed.value.0, portOpen, accepted);
    r := Outcome(bank, sent, report);
  }

  /** How `set` and `setm` address a channel: by id (`l<id>`) or by peak. */
  datatype Target = ById(id: int) | ByPeak(peak: real)

  /** The second word of `set`/`setm`: a word longer than one character
      that starts with `l` is an id read by `std::stoi`, anything else a
      peak read by `std::stof`; `None` where the read throws. */
  function ParseTarget(w: string): (t: Option<Target>)
    ensures t.Some? && t.value.ById? ==> |w| > 1 && w[0] == 'l'
    ensures t.Some? && t.value.ByPeak? ==> !(|w| > 1 && w[0] == 'l')
  {
    if |w| > 1 && w[0] == 'l' then
      match ReadInt(w[1..])
      case None => None
      case Some((id, _)) => Some(ById(id))
    else
      match ReadReal(w)
      case None => None
      case Some(p) => Some(ByPeak(p))
  }

  /** `getById` or `getByPeak`, whichever the target names. */
  function Locate(b: Bank, t: Target): (r: Option<nat>)
    ensures r.Some? ==> r.value < |b|
  {
    match t
    case ById(id) => FindById(b, id)
    case ByPeak(p) => FindByPeak(b, p)
  }

  /** Whether a three-word `set`/`setm` line names a channel the bank has and a readable value. */
  predicate Resolves(b: Bank, args: seq<string>) {
    |args| == 3 && ParseTarget(args[1]).Some? && ReadInt(args[2]).Some?
    && Locate(b, ParseTarget(args[1]).value).Some?
  }

  /** `set` (level `Intensity`) and `setm` (level `Ceiling`): write the value,
      truncated to a byte, into the one addressed channel. */
  function SetOne(b: Bank, args: seq<string>, level: Level): (r: Outcome)
    ensures r.sent == [] && |r.bank| == |b|
    ensures r.report in {Usage, Uncaught, NoSuchLed, Done}
    ensures r.report == Usage <==> |args| != 3
    ensures r.report == NoSuchLed <==>
      |args| == 3 && ParseTarget(args[1]).Some? && ReadInt(args[2]).Some?
      && Locate(b, ParseTarget(args[1]).value).None?
    ensures r.report == Uncaught <==> |args| == 3 && (ParseTarget(args[1]).None? || ReadInt(args[2]).None?)
    ensures r.report == Done <==> Resolves(b, args)
    ensures r.report != Done ==> r.bank == b
    ensures r.report == Done ==>
      var i := Locate(b, ParseTarget(args[1]).value).value;
      && r.bank[i] == Store(b[i], level, ToByte(ReadInt(args[2]).value.0))
      && forall j :: 0 <= j < |b| && j != i ==> r.bank[j] == b[j]
  {
    if |args| != 3 then Outcome(b, [], Usage)
    else
      match (ParseTarget(args[1]), ReadInt(args[2]))
      case (None, _) => Outcome(b, [], Uncaught)
      case (_, None) => Outcome(b, [], Uncaught)
      case (Some(t), Some((v, _))) =>
        match Locate(b, t)
        case None => Outcome(b, [], NoSuchLed)
        case Some(i) => Outcome(StoreAt(b, i, level, ToByte(v)), [], Done)
  }

  /** `set`: usage without three words, an uncaught exception when the
      target or the value does not read, an error for a channel the bank
      lacks, and otherwise that one channel's intensity set to the value
      mod 256, its ceiling and every other channel kept. */
  function HandleSet(b: Bank, args: seq<string>): (r: Outcome)
    ensures r.sent == [] && |r.bank| == |b|
    ensures r.report == Usage <==> |args| != 3
    ensures r.report == NoSuchLed <==>
      |args| == 3 && ParseTarget(args[1]).Some? && ReadInt(args[2]).Some?
      && Locate(b, ParseTarget(args[1]).value).None?
    ensures r.report == Uncaught <==> |args| == 3 && (ParseTarget(args[1]).None? || ReadInt(args[2]).None?)
    ensures r.report == Done <==> Resolves(b, args)
    ensures r.report != Done ==> r.bank == b
    ensures r.report == Done ==>
      var i := Locate(b, ParseTarget(args[1]).value).value;
      && SameIdentity(b[i], r.bank[i])
      && r.bank[i].intensity == ToByte(ReadInt(args[2]).value.0) && r.bank[i].maxIntensity == b[i].maxIntensity
      && forall j :: 0 <= j < |b| && j != i ==> r.bank[j] == b[j]
  {
    SetOne(b, args, Intensity)
  }

  /** `setm`: as `set`, but the ceiling is what changes and the intensity is kept. */
  function HandleSetM(b: Bank, args: seq<string>): (r: Outcome)
    ensures r.sent == [] && |r.bank| == |b|
    ensures r.report == Usage <==> |args| != 3
    ensures r.report == NoSuchLed <==>
      |args| == 3 && ParseTarget(args[1]).Some? && ReadInt(args[2]).Some?
      && Locate(b, ParseTarget(args[1]).value).None?
    ensures r.report == Uncaught <==> |args| == 3 && (ParseTarget(args[1]).None? || ReadInt(args[2]).None?)
    ensures r.report == Done <==> Resolves(b, args)
    ensures r.report != Done ==> r.bank == b
    ensures r.report == Done ==>
      var i := Locate(b, ParseTarget(args[1]).value).value;
      && SameIdentity(b[i], r.bank[i])
      && r.bank[i].maxIntensity == ToByte(ReadInt(args[2]).value.0) && r.bank[i].intensity == b[i].intensity
      && forall j :: 0 <= j < |b| && j != i ==> r.bank[j] == b[j]
  {
    SetOne(b, args, Ceiling)
  }

  /** Whether channel `j` is the one `getById` finds for its id, with that id in 1..n. */
  predicate ReachedById(b: Bank, j: nat, n: nat)
    requires j < |b|
  {
    1 <= b[j].id <= n && FindById(b, b[j].id) == Some(j)
  }

  /** Banks with the same ids at the same positions resolve every id alike. */
  lemma FindByIdSameIds(b: Bank, c: Bank, id: int)
    requires |b| == |c| && forall i :: 0 <= i < |b| ==> b[i].id == c[i].id
    ensures FindById(b, id) == FindById(c, id)
  {
  }

  /** The loop `for (i = 1; i <= n; ++i) getById(i).set…(v)` with unknown ids
      skipped: the channel each id in 1..n resolves to gets the value;
      every other channel, and every id, stays as it was. */
  function StoreIds(b: Bank, n: nat, level: Level, v: byte): (r: Bank)
    ensures |r| == |b|
    ensures forall j :: 0 <= j < |b| ==> r[j] == (if ReachedById(b, j, n) then Store(b[j], level, v) else b[j])
  {
    if n == 0 then b
    else
      var prev := StoreIds(b, n - 1, level, v);
      FindByIdSameIds(prev, b, n);
      StoreById(prev, n, level, v)
  }

  /** `seta` (level `Intensity`) and `setma` (level `Ceiling`): write the value,
      truncated to a byte, into every channel reachable by the ids 1..30. */
  function SetAll(b: Bank, args: seq<string>, level: Level): (r: Outcome)
    ensures r.sent == [] && |r.bank| == |b|
    ensures r.report in {Usage, Uncaught, Done}
    ensures r.report == Usage <==> |args| != 2
    ensures r.report == Done <==> |args| == 2 && ReadInt(args[1]).Some?
    ensures r.report != Done ==> r.bank == b
    ensures r.report == Done ==> forall j :: 0 <= j < |b| ==>
      r.bank[j] == (if ReachedById(b, j, Size) then Store(b[j], level, ToByte(ReadInt(args[1]).value.0)) else b[j])
  {
    if |args| != 2 then Outcome(b, [], Usage)
    else
      match ReadInt(args[1])
      case None => Outcome(b, [], Uncaught)
      case Some((v, _)) => Outcome(StoreIds(b, Size, level, ToByte(v)), [], Done)
  }

  /** `seta`: usage without two words, an uncaught exception when the value
      does not read, and otherwise the intensity of every channel some id in
      1..30 reaches set to the value mod 256, every ceiling kept. */
  function HandleSetA(b: Bank, args: seq<string>): (r: Outcome)
    ensures r.sent == [] && |r.bank| == |b|
    ensures r.report == Usage <==> |args| != 2
    ensures r.report == Uncaught <==> |args| == 2 && ReadInt(args[1]).None?
    ensures r.report == Done <==> |args| == 2 && ReadInt(args[1]).Some?
    ensures r.report != Done ==> r.bank == b
    ensures r.report == Done ==> forall j :: 0 <= j < |b| ==>
      && SameIdentity(b[j], r.bank[j]) && r.bank[j].maxIntensity == b[j].maxIntensity
      && r.bank[j].intensity == (if ReachedById(b, j, Size) then ToByte(ReadInt(args[1]).value.0) else b[j].intensity)
  {
    SetAll(b, args, Intensity)
  }

  /** `setma`: as `seta`, but the ceilings are what change and the intensities are kept. */
  function HandleSetMA(b: Bank, args: seq<string>): (r: Outcome)
    ensures r.sent == [] && |r.bank| == |b|
    ensures r.report == Usage <==> |args| != 2
    ensures r.report == Uncaught <==> |args| == 2 && ReadInt(args[1]).None?
    ensures r.report == Done <==> |args| == 2 && ReadInt(args[1]).Some?
    ensures r.report != Done ==> r.bank == b
    ensures r.report == Done ==> forall j :: 0 <= j < |b| ==>
      && SameIdentity(b[j], r.bank[j]) && r.bank[j].intensity == b[j].intensity
      && r.bank[j].maxIntensity == (if ReachedById(b, j, Size) then ToByte(ReadInt(args[1]).value.0) else b[j].maxIntensity)
  {
    SetAll(b, args, Ceiling)
  }

  /** `SetOne` once its words have been read: the outcome depends only on the
      target and the value. */
  lemma SetOneOfParsed(b: Bank, args: seq<string>, level: Level, t: Target, v: int)
    requires |args| == 3 && ParseTarget(args[1]) == Some(t)
    requires ReadInt(args[2]).Some? && ReadInt(args[2]).value.0 == v
    ensures Locate(b, t).None? ==> SetOne(b, args, level) == Outcome(b, [], NoSuchLed)
    ensures Locate(b, t).Some? ==>
      var i := Locate(b, t).value;
      SetOne(b, args, level) == Outcome(b[i := Store(b[i], level, ToByte(v))], [], Done)
  {
  }

  /** `SetAll` once its value has been read. */
  lemma SetAllOfParsed(b: Bank, args: seq<string>, level: Level, v: int)
    requires |args| == 2 && ReadInt(args[1]).Some? && ReadInt(args[1]).value.0 == v
    ensures SetAll(b, args, level) == Outcome(StoreIds(b, Size, level, ToByte(v)), [], Done)
  {
  }

  /** A shaped bank goes out as 32 bytes: the magic bytes, then channel
      `i`'s intensity at offset `i + 2`. */
  lemma PacketLayout(b: Bank)
    requires Shaped(b)
    ensures |Packet(b)| == 32 && Packet(b)[..2] == Header
    ensures forall i :: 0 <= i < Size ==> Packet(b)[i + 2] == b[i].intensity
  {
    var d := IntensityData(b);
    assert Packet(b)[2..] == d;
    forall i | 0 <= i < Size
      ensures Packet(b)[i + 2] == b[i].intensity
    {
      assert Packet(b)[2..][i] == d[i];
    }
  }

  /** Rounds of `randomizeAll` keep every identity and ceiling, leave the
      infrared channels alone and, after at least one round, hold every other
      channel within its ceiling. */
  lemma {:induction false} RoundsKeepCeilings(b: Bank, draws: nat -> nat -> nat, n: nat)
    ensures |Iterate(b, Round(draws), n)| == |b|
    ensures forall i :: 0 <= i < |b| ==>
      var l := Iterate(b, Round(draws), n)[i];
      && SameIdentity(b[i], l) && l.maxIntensity == b[i].maxIntensity
      && (IsInfrared(b[i]) ==> l == b[i])
      && (n > 0 && !IsInfrared(b[i]) ==> l.intensity <= l.maxIntensity)
  {
    if n > 0 {
      RoundsKeepCeilings(b, draws, n - 1);
      var prev := Iterate(b, Round(draws), n - 1);
      assert Iterate(b, Round(draws), n) == RandomizeAll(prev, draws(n - 1));
    }
  }

  /** Every packet `do` sends for a shaped bank is a 32-byte frame whose
      byte for a non-infrared channel lies within that channel's ceiling and
      whose byte for an infrared channel is the intensity it had before. */
  lemma DoPacketsWithinCeilings(b: Bank, draws: nat -> nat -> nat, n: nat, k: nat)
    requires Shaped(b) && k < n
    ensures var p := Trace(b, Round(draws), Packet, n)[k];
      && |p| == 32 && p[..2] == Header
      && forall i :: 0 <= i < Size ==>
           if IsInfrared(b[i]) then p[i + 2] == b[i].intensity else p[i + 2] <= b[i].maxIntensity
  {
    TraceAt(b, Round(draws), Packet, n, k);
    var bank := Iterate(b, Round(draws), k + 1);
    RoundsKeepCeilings(b, draws, k + 1);
    assert Shaped(bank);
    PacketLayout(bank);
  }

  /** The digits of an integer never start with `l`, so they address a peak. */
  lemma IntTextIsNoId(n: int)
    ensures IntText(n) != [] && IntText(n)[0] != 'l'
  {
    if n >= 0 {
      assert IsDigit(Digits(n)[0]);
    }
  }

  /** `set l<x> y` / `setm l<x> y` on a shaped bank write `y` truncated to a
      byte into channel `x` only, and change nothing when `x` is not an id
      in 1..30. */
  lemma SetByIdOnShapedBank(b: Bank, cmd: string, x: int, y: int, level: Level)
    requires Shaped(b)
    requires IntMin <= x <= IntMax && IntMin <= y <= IntMax
    ensures var r := SetOne(b, [cmd, "l" + IntText(x), IntText(y)], level);
      && Shaped(r.bank) && r.sent == []
      && (1 <= x <= Size ==> r.report == Done && r.bank == b[x - 1 := Store(b[x - 1], level, ToByte(y))])
      && (!(1 <= x <= Size) ==> r.report == NoSuchLed && r.bank == b)
  {
    var w := "l" + IntText(x);
    ParseIdText(x);
    ReadWholeInt(y);
    SetOneOfParsed(b, [cmd, w, IntText(y)], level, ById(x), y);
    ShapedFindById(b, x);
    ShapedStoreById(b, x, level, ToByte(y));
  }

  /** `set <peak> y` / `setm <peak> y` with an integral peak a `float`
      holds exactly write into the first channel with exactly that peak, and
      change nothing when no channel has it; a peak beyond the range of
      `float` escapes as an exception and changes nothing. */
  lemma SetByPeakText(b: Bank, cmd: string, peak: int, y: int, level: Level)
    requires IntMin <= y <= IntMax
    ensures var r := SetOne(b, [cmd, IntText(peak), IntText(y)], level);
      && r.sent == []
      && (Abs(peak) <= FloatExactInts && FindByPeak(b, peak as real).None? ==> r.report == NoSuchLed && r.bank == b)
      && (Abs(peak) <= FloatExactInts && FindByPeak(b, peak as real).Some? ==>
            var i := FindByPeak(b, peak as real).value;
            r.report == Done && r.bank == b[i := Store(b[i], level, ToByte(y))])
      && (FloatOverflow <= Abs(peak) as real ==> r.report == Uncaught && r.bank == b)
  {
    var args := [cmd, IntText(peak), IntText(y)];
    ParsePeakText(peak);
    if Abs(peak) <= FloatExactInts {
      ReadWholeInt(y);
      SetOneOfParsed(b, args, level, ByPeak(peak as real), y);
    }
  }

  /** `l` and an `int`'s text read as a `set` target is that id. */
  lemma ParseIdText(x: int)
    requires IntMin <= x <= IntMax
    ensures ParseTarget("l" + IntText(x)) == Some(ById(x))
  {
    var w := "l" + IntText(x);
    IntTextIsNoId(x);
    assert w[1..] == IntText(x) + [];
    ReadIntOfText(x, []);
  }

  /** An integer's text read as a `set` target is that integer as a peak
      when a `float` holds it exactly, and throws beyond the range of `float`. */
  lemma ParsePeakText(peak: int)
    ensures Abs(peak) <= FloatExactInts ==> ParseTarget(IntText(peak)) == Some(ByPeak(peak as real))
    ensures FloatOverflow <= Abs(peak) as real ==> ParseTarget(IntText(peak)) == None
  {
    IntTextIsNoId(peak);
    if Abs(peak) <= FloatExactInts {
      ReadRealOfText(peak);
    } else if FloatOverflow <= Abs(peak) as real {
      ReadRealOfHugeText(peak);
    }
  }

  /** An `int`'s text alone reads back as that `int`, with nothing left over. */
  lemma ReadWholeInt(n: int)
    requires IntMin <= n <= IntMax
    ensures ReadInt(IntText(n)) == Some((n, []))
  {
    assert IntText(n) == IntText(n) + [];
    ReadIntOfText(n, []);
  }

  /** On a shaped bank `seta v` / `setma v` write `v` truncated to a byte
      into every channel and leave the other control and the shape alone. */
  lemma SetAllOnShapedBank(b: Bank, cmd: string, v: int, level: Level)
    requires Shaped(b) && IntMin <= v <= IntMax
    ensures var r := SetAll(b, [cmd, IntText(v)], level);
      && r.report == Done && r.sent == [] && Shaped(r.bank)
      && forall j :: 0 <= j < Size ==> r.bank[j] == Store(b[j], level, ToByte(v))
  {
    ReadWholeInt(v);
    SetAllOfParsed(b, [cmd, IntText(v)], level, v);
    StoreAllIds(b, level, ToByte(v));
  }

  /** On a shaped bank the ids 1..30 reach every channel. */
  lemma StoreAllIds(b: Bank, level: Level, v: byte)
    requires Shaped(b)
    ensures Shaped(StoreIds(b, Size, level, v))
    ensures forall j :: 0 <= j < Size ==> StoreIds(b, Size, level, v)[j] == Store(b[j], level, v)
  {
    forall j | 0 <= j < Size
      ensures ReachedById(b, j, Size)
    {
      ShapedFindById(b, j + 1);
    }
  }

  /** A store into position `i` writes the chosen control there and leaves every other position alone. */
  lemma StoreElsewhere(b: Bank, i: nat, level: Level, v: byte)
    requires i < |b|
    ensures forall j :: 0 <= j < |b| && j != i ==> b[i := Store(b[i], level, v)][j] == b[j]
    ensures level == Intensity ==>
      b[i := Store(b[i], level, v)][i].intensity == v && b[i := Store(b[i], level, v)][i].maxIntensity == b[i].maxIntensity
    ensures level == Ceiling ==>
      b[i := Store(b[i], level, v)][i].maxIntensity == v && b[i := Store(b[i], level, v)][i].intensity == b[i].intensity
  {
  }

  /** `set l<x> y` on a shaped bank: channel x's intensity becomes `y` mod
      256 and nothing else changes; an unknown x changes nothing. */
  lemma SetIdOnShapedBank(b: Bank, x: int, y: int)
    requires Shaped(b)
    requires IntMin <= x <= IntMax && IntMin <= y <= IntMax
    ensures var r := HandleSet(b, ["set", "l" + IntText(x), IntText(y)]);
      && Shaped(r.bank)
      && (1 <= x <= Size ==>
            && r.report == Done
            && r.bank[x - 1].intensity == ToByte(y) && r.bank[x - 1].maxIntensity == b[x - 1].maxIntensity
            && forall j :: 0 <= j < Size && j != x - 1 ==> r.bank[j] == b[j])
      && (!(1 <= x <= Size) ==> r.report == NoSuchLed && r.bank == b)
  {
    SetByIdOnShapedBank(b, "set", x, y, Intensity);
    if 1 <= x <= Size {
      StoreElsewhere(b, x - 1, Intensity, ToByte(y));
    }
  }

  /** `setm l<x> y` on a shaped bank: channel x's ceiling becomes `y` mod
      256, its intensity is kept, and nothing else changes; an unknown x
      changes nothing. */
  lemma SetMIdOnShapedBank(b: Bank, x: int, y: int)
    requires Shaped(b)
    requires IntMin <= x <= IntMax && IntMin <= y <= IntMax
    ensures var r := HandleSetM(b, ["setm", "l" + IntText(x), IntText(y)]);
      && Shaped(r.bank)
      && (1 <= x <= Size ==>
            && r.report == Done
            && r.bank[x - 1].maxIntensity == ToByte(y) && r.bank[x - 1].intensity == b[x - 1].intensity
            && forall j :: 0 <= j < Size && j != x - 1 ==> r.bank[j] == b[j])
      && (!(1 <= x <= Size) ==> r.report == NoSuchLed && r.bank == b)
  {
    SetByIdOnShapedBank(b, "setm", x, y, Ceiling);
    if 1 <= x <= Size {
      StoreElsewhere(b, x - 1, Ceiling, ToByte(y));
    }
  }

  /** `set <peak> y` with an integral peak a `float` holds exactly: the
      first channel with exactly that peak gets intensity `y` mod 256 and
      nothing else changes; an unmatched peak changes nothing. A peak beyond
      the range of `float` makes `std::stof` throw, uncaught. */
  lemma SetPeakText(b: Bank, peak: int, y: int)
    requires IntMin <= y <= IntMax
    ensures var r := HandleSet(b, ["set", IntText(peak), IntText(y)]);
      && (Abs(peak) <= FloatExactInts && FindByPeak(b, peak as real).None? ==> r.report == NoSuchLed && r.bank == b)
      && (Abs(peak) <= FloatExactInts && FindByPeak(b, peak as real).Some? ==>
            var i := FindByPeak(b, peak as real).value;
            && r.report == Done
            && r.bank[i].intensity == ToByte(y) && r.bank[i].maxIntensity == b[i].maxIntensity
            && forall j :: 0 <= j < |b| && j != i ==> r.bank[j] == b[j])
      && (FloatOverflow <= Abs(peak) as real ==> r.report == Uncaught && r.bank == b)
  {
    var args := ["set", IntText(peak), IntText(y)];
    SetByPeakText(b, "set", peak, y, Intensity);
    assert HandleSet(b, args) == SetOne(b, args, Intensity);
    var found := FindByPeak(b, peak as real);
    if Abs(peak) <= FloatExactInts && found.Some? {
      StoreElsewhere(b, found.value, Intensity, ToByte(y));
    }
  }

  /** `setm <peak> y` with an integral peak a `float` holds exactly: the
      first channel with exactly that peak gets ceiling `y` mod 256, keeping
      its intensity, and nothing else changes; an unmatched peak changes
      nothing. A peak beyond the range of `float` makes `std::stof` throw,
      uncaught. */
  lemma SetMPeakText(b: Bank, peak: int, y: int)
    requires IntMin <= y <= IntMax
    ensures var r := HandleSetM(b, ["setm", IntText(peak), IntText(y)]);
      && (Abs(peak) <= FloatExactInts && FindByPeak(b, peak as real).None? ==> r.report == NoSuchLed && r.bank == b)
      && (Abs(peak) <= FloatExactInts && FindByPeak(b, peak as real).Some? ==>
            var i := FindByPeak(b, peak as real).value;
            && r.report == Done
            && r.bank[i].maxIntensity == ToByte(y) && r.bank[i].intensity == b[i].intensity
            && forall j :: 0 <= j < |b| && j != i ==> r.bank[j] == b[j])
      && (FloatOverflow <= Abs(peak) as real ==> r.report == Uncaught && r.bank == b)
  {
    var args := ["setm", IntText(peak), IntText(y)];
    SetByPeakText(b, "setm", peak, y, Ceiling);
    assert HandleSetM(b, args) == SetOne(b, args, Ceiling);
    var found := FindByPeak(b, peak as real);
    if Abs(peak) <= FloatExactInts && found.Some? {
      StoreElsewhere(b, found.value, Ceiling, ToByte(y));
    }
  }

  /** A word of digits, a point and more digits read as a `set` target is
      the decimal it writes, as a peak; beyond the range of `float` it throws. */
  lemma ParseDecimalPeak(w: string, p: nat)
    requires 0 < p < |w| && w[p] == '.' && AllDigits(w[..p]) && AllDigits(w[p + 1..])
    ensures var v := DigitsValue(w[..p]) as real + FractionValue(w[p + 1..]);
      ParseTarget(w) == if InFloatRange(v) then Some(ByPeak(v)) else None
  {
    assert w[0] == w[..p][0];
    ReadRealOfDecimal(w, p);
  }

  /** `SetOne` on a shaped bank whose target is a peak with a fractional part
      finds no channel and changes nothing. */
  lemma SetOneOfFractionalPeak(b: Bank, args: seq<string>, level: Level, v: real)
    requires Shaped(b) && |args| == 3 && ParseTarget(args[1]) == Some(ByPeak(v)) && ReadInt(args[2]).Some?
    requires v != v.Floor as real
    ensures SetOne(b, args, level) == Outcome(b, [], NoSuchLed)
  {
    ShapedFindFractionalPeak(b, v);
  }

  /** `set 405.5 y` and `setm 405.5 y` on a shaped bank: 405.5 nm lies
      between the table's 405 and 430 and is no channel's peak, so the line
      reports that no LED has it and changes nothing. */
  lemma SetBetweenPeaks(b: Bank, cmd: string, y: int, level: Level)
    requires Shaped(b) && IntMin <= y <= IntMax
    ensures SetOne(b, [cmd, "405.5", IntText(y)], level) == Outcome(b, [], NoSuchLed)
  {
    PointFiveText();
    ParseDecimalPeak("405.5", 3);
    ReadWholeInt(y);
    SetOneOfFractionalPeak(b, [cmd, "405.5", IntText(y)], level, 405.5);
  }

  /** "405.5" is a decimal word with its point at 3, writing 405.5. */
  lemma PointFiveText()
    ensures var w := "405.5";
      && w[3] == '.' && AllDigits(w[..3]) && AllDigits(w[4..])
      && DigitsValue(w[..3]) as real + FractionValue(w[4..]) == 405.5
      && InFloatRange(405.5) && 405.5 != (405.5).Floor as real
  {
    var w := "405.5";
    assert w[..3] == "405" && w[4..] == "5";
    assert DigitsValue("405") == 405 by {
      assert "405"[..2] == "40" && "40"[..1] == "4" && "4"[..0] == [];
    }
    assert FractionValue("5") == 0.5 by {
      assert "5"[1..] == [];
    }
  }

  /** `seta v` on a shaped bank: every channel's intensity becomes `v` mod
      256 and every ceiling is kept. */
  lemma SetAOnShapedBank(b: Bank, v: int)
    requires Shaped(b) && IntMin <= v <= IntMax
    ensures var r := HandleSetA(b, ["seta", IntText(v)]);
      && r.report == Done && Shaped(r.bank)
      && forall j :: 0 <= j < Size ==>
           r.bank[j].intensity == ToByte(v) && r.bank[j].maxIntensity == b[j].maxIntensity
  {
    SetAllOnShapedBank(b, "seta", v, Intensity);
  }

  /** `setma v` on a shaped bank: every channel's ceiling becomes `v` mod
      256 and every intensity is kept. */
  lemma SetMAOnShapedBank(b: Bank, v: int)
    requires Shaped(b) && IntMin <= v <= IntMax
    ensures var r := HandleSetMA(b, ["setma", IntText(v)]);
      && r.report == Done && Shaped(r.bank)
      && forall j :: 0 <= j < Size ==>
           r.bank[j].maxIntensity == ToByte(v) && r.bank[j].intensity == b[j].intensity
  {
    SetAllOnShapedBank(b, "setma", v, Ceiling);
  }
}

=== FILE: CommandParser.dfy ===
/** The command dispatcher (src/CommandParser.cpp): an input line is split
    into whitespace-separated words, the first word names the command, and a
    table from names to handlers picks the handler that receives the other
    words. Handlers are opaque values of type `H`; running a command is
    modelled by the `Call` it makes. */
module CommandParser {
  import opened Common
  import opened Text

  /** A word as `istream >> std::string` produces it: non-empty, no whitespace. */
  predicate IsWord(w: string) {
    w != [] && forall i :: 0 <= i < |w| ==> !IsSpace(w[i])
  }

  /** Length of the run of non-whitespace characters at the start of `s`. */
  function WordRun(s: string): (k: nat)
    ensures k <= |s|
    ensures forall i :: 0 <= i < k ==> !IsSpace(s[i])
    ensures k == |s| || IsSpace(s[k])
  {
    if s != [] && !IsSpace(s[0]) then 1 + WordRun(s[1..]) else 0
  }

  /** The words of `s`, in order, as repeated `istream >> std::string` reads them. */
  function Words(s: string): (ws: seq<string>)
    ensures forall i :: 0 <= i < |ws| ==> IsWord(ws[i])
    decreases |s|
  {
    var t := SkipSpace(s);
    if t == [] then []
    else
      var k := WordRun(t);
      LeadingWord(t);
      var rest := Words(t[k..]);
      AllWordsCons(t[..k], rest);
      [t[..k]] + rest
  }

  /** A word in front of a list of words gives a list of words. */
  lemma AllWordsCons(w: string, ws: seq<string>)
    requires IsWord(w) && forall i :: 0 <= i < |ws| ==> IsWord(ws[i])
    ensures forall i :: 0 <= i < |[w] + ws| ==> IsWord(([w] + ws)[i])
  {
  }

  /** Text that starts with a non-space starts with a word. */
  lemma LeadingWord(t: string)
    requires t != [] && !IsSpace(t[0])
    ensures IsWord(t[..WordRun(t)])
  {
    var k := WordRun(t);
    assert k > 0;
    forall i | 0 <= i < k
      ensures !IsSpace(t[..k][i])
    {
      assert t[..k][i] == t[i];
    }
  }

  /** Words written back with a space after each. */
  function Unwords(ws: seq<string>): string {
    if ws == [] then [] else ws[0] + " " + Unwords(ws[1..])
  }

  /** All words run together. */
  function Concat(ws: seq<string>): string {
    if ws == [] then [] else ws[0] + Concat(ws[1..])
  }

  /** The characters of `s` that are not whitespace, in order. */
  function RemoveSpace(s: string): string {
    if s == [] then [] else (if IsSpace(s[0]) then [] else [s[0]]) + RemoveSpace(s[1..])
  }

  /** The command word and its arguments: `""` and no arguments when the line has no word. */
  function Split(input: string): (r: (string, seq<string>))
    ensures r.0 == [] || IsWord(r.0)
    ensures forall i :: 0 <= i < |r.1| ==> IsWord(r.1[i])
  {
    var ws := Words(input);
    if ws == [] then ([], []) else (ws[0], ws[1..])
  }

  /** The handler table and the optional error handler. */
  datatype Parser<H> = Parser(commands: map<string, H>, errorHandler: Option<H>)

  /** One handler invocation and the argument list it receives. */
  datatype Call<H> = Call(handler: H, args: seq<string>)

  /** What `parseAndExecute` returns, and the one handler call it makes, if any. */
  datatype Outcome<H> = Outcome(found: bool, call: Option<Call<H>>)

  function NewParser<H>(): (p: Parser<H>)
    ensures p.commands == map[] && p.errorHandler.None?
  {
    Parser(map[], None)
  }

  /** `registerCommand`: the name now maps to `h`, replacing any earlier handler;
      every other name and the error handler stay as they were. */
  function RegisterCommand<H>(p: Parser<H>, name: string, h: H): (q: Parser<H>)
    ensures name in q.commands && q.commands[name] == h
    ensures q.commands.Keys == p.commands.Keys + {name}
    ensures forall n :: n in p.commands && n != name ==> q.commands[n] == p.commands[n]
    ensures q.errorHandler == p.errorHandler
  {
    p.(commands := p.commands[name := h])
  }

  /** `setErrorHandler`: replaces the error handler; the table stays as it
      was. `None` is an empty `std::function`, which removes the error handler. */
  function SetErrorHandler<H>(p: Parser<H>, h: Option<H>): (q: Parser<H>)
    ensures q.errorHandler == h && q.commands == p.commands
  {
    p.(errorHandler := h)
  }

  /** `parseAndExecute`: a registered command word runs its handler on the
      remaining words and answers true; any other word answers false and
      hands the one-element list holding that word to the error handler, if there is one. */
  function ParseAndExecute<H>(p: Parser<H>, input: string): (o: Outcome<H>)
    ensures o.found <==> Split(input).0 in p.commands
    ensures o.found ==> o.call.Some? && o.call.value.args == Split(input).1
    ensures o.found ==> o.call.value.handler == p.commands[Split(input).0]
    ensures !o.found ==> (o.call.Some? <==> p.errorHandler.Some?)
    ensures !o.found && o.call.Some? ==> o.call.value.handler == p.errorHandler.value
    ensures !o.found && o.call.Some? ==> o.call.value.args == [Split(input).0]
  {
    var (cmd, args) := Split(input);
    if cmd in p.commands then Outcome(true, Some(Call(p.commands[cmd], args)))
    else match p.errorHandler
      case Some(e) => Outcome(false, Some(Call(e, [cmd])))
      case None => Outcome(false, None)
  }

  /** The run of a word followed by whitespace or the end is the word itself. */
  lemma {:induction false} WordRunOfWord(w: string, t: string)
    requires forall i :: 0 <= i < |w| ==> !IsSpace(w[i])
    requires t == [] || IsSpace(t[0])
    ensures WordRun(w + t) == |w|
  {
    if w != [] {
      assert (w + t)[1..] == w[1..] + t;
      WordRunOfWord(w[1..], t);
    } else {
      assert w + t == t;
    }
  }

  /** Whitespace in front changes no word. */
  lemma WordsAfterSpace(c: char, s: string)
    requires IsSpace(c)
    ensures Words([c] + s) == Words(s)
  {
    assert ([c] + s)[1..] == s;
  }

  /** A word ends at any whitespace character and at the end of the text:
      a word followed by text that is empty or starts with whitespace is the
      first word, then come the words of that text. */
  lemma WordsOfWordThen(w: string, rest: string)
    requires IsWord(w)
    requires rest == [] || IsSpace(rest[0])
    ensures Words(w + rest) == [w] + Words(rest)
  {
    var s := w + rest;
    assert SkipSpace(s) == s by {
      assert s[0] == w[0];
    }
    WordRunOfWord(w, rest);
    assert s[..|w|] == w;
    assert s[|w|..] == rest;
  }

  /** A word, a space and more text: the word comes first, then the words of the rest. */
  lemma WordsOfWordThenSpace(w: string, rest: string)
    requires IsWord(w)
    ensures Words(w + " " + rest) == [w] + Words(rest)
  {
    assert w + " " + rest == w + ([' '] + rest);
    WordsOfWordThen(w, [' '] + rest);
    WordsAfterSpace(' ', rest);
  }

  /** A word alone on a line is the one word of that line. */
  lemma WordsOfWord(w: string)
    requires IsWord(w)
    ensures Words(w) == [w]
  {
    WordsOfWordThen(w, []);
    assert w + [] == w;
    assert SkipSpace([]) == [];
  }

  /** Any run of whitespace in front changes no word. */
  lemma {:induction false} WordsAfterSpaces(sp: string, s: string)
    requires forall i :: 0 <= i < |sp| ==> IsSpace(sp[i])
    ensures Words(sp + s) == Words(s)
  {
    if sp != [] {
      assert sp + s == [sp[0]] + (sp[1..] + s);
      WordsAfterSpace(sp[0], sp[1..] + s);
      WordsAfterSpaces(sp[1..], s);
    } else {
      assert sp + s == s;
    }
  }

  /** Words laid out with whitespace: `lead` before the first word and
      `seps[i]` after word `i`. */
  function Layout(lead: string, ws: seq<string>, seps: seq<string>): string
    requires |seps| == |ws|
    decreases |ws|
  {
    if ws == [] then lead else lead + ws[0] + Layout(seps[0], ws[1..], seps[1..])
  }

  /** Whether a string is whitespace only. */
  predicate AllSpace(s: string) {
    forall i :: 0 <= i < |s| ==> IsSpace(s[i])
  }

  /** Text laid out from a string of whitespace and more text starts with
      whitespace or is empty. */
  lemma LayoutStartsWithSpace(lead: string, ws: seq<string>, seps: seq<string>)
    requires |seps| == |ws| && AllSpace(lead)
    requires ws != [] ==> lead != []
    ensures var s := Layout(lead, ws, seps); s == [] || IsSpace(s[0])
  {
    if ws != [] {
      assert Layout(lead, ws, seps)[0] == lead[0];
    }
  }

  /** Whether `lead`, `ws` and `seps` lay out words: `lead` is whitespace,
      and so is each `seps[i]`, which is also non-empty between two words. */
  predicate LaysOut(lead: string, ws: seq<string>, seps: seq<string>)
    decreases |ws|
  {
    && |seps| == |ws| && AllSpace(lead)
    && (ws != [] ==>
          && IsWord(ws[0])
          && (|ws| > 1 ==> seps[0] != [])
          && LaysOut(seps[0], ws[1..], seps[1..]))
  }

  /** Round trip of tokenizing for every layout: words separated by any
      non-empty runs of whitespace, with any whitespace before the first and
      after the last, split into exactly those words again. */
  lemma {:induction false} WordsOfLayout(lead: string, ws: seq<string>, seps: seq<string>)
    requires LaysOut(lead, ws, seps)
    ensures Words(Layout(lead, ws, seps)) == ws
    decreases |ws|
  {
    if ws == [] {
      WordsOfBlank(lead);
    } else {
      var rest := Layout(seps[0], ws[1..], seps[1..]);
      WordsOfLayout(seps[0], ws[1..], seps[1..]);
      LayoutStartsWithSpace(seps[0], ws[1..], seps[1..]);
      LayoutCons(lead, ws, seps);
      WordsOfSpacedWord(lead, ws[0], rest);
      assert ws == [ws[0]] + ws[1..];
    }
  }

  /** Whitespace alone holds no word. */
  lemma WordsOfBlank(sp: string)
    requires AllSpace(sp)
    ensures Words(sp) == []
  {
    SkipAllSpace(sp);
  }

  /** Whitespace, a word and text that is empty or starts with whitespace:
      the word, then the words of that text. */
  lemma WordsOfSpacedWord(lead: string, w: string, rest: string)
    requires AllSpace(lead) && IsWord(w)
    requires rest == [] || IsSpace(rest[0])
    ensures Words(lead + (w + rest)) == [w] + Words(rest)
  {
    WordsAfterSpaces(lead, w + rest);
    WordsOfWordThen(w, rest);
  }

  /** `Layout` of a non-empty list: the lead, the first word, then the layout of the rest. */
  lemma LayoutCons(lead: string, ws: seq<string>, seps: seq<string>)
    requires |seps| == |ws| && ws != []
    ensures Layout(lead, ws, seps) == lead + (ws[0] + Layout(seps[0], ws[1..], seps[1..]))
  {
  }

  /** `Unwords` of a list is its first word, a space, and `Unwords` of the rest. */
  lemma UnwordsCons(w: string, tail: seq<string>)
    ensures Unwords([w] + tail) == w + " " + Unwords(tail)
  {
    assert ([w] + tail)[1..] == tail;
  }

  /** Round trip of tokenizing: words written back with separating spaces
      split into exactly those words again. */
  lemma {:induction false} WordsOfUnwords(ws: seq<string>)
    requires forall i :: 0 <= i < |ws| ==> IsWord(ws[i])
    ensures Words(Unwords(ws)) == ws
  {
    if ws == [] {
      assert SkipSpace([]) == [];
    } else {
      var w, tail := ws[0], ws[1..];
      var rest := Unwords(tail);
      assert ws == [w] + tail;
      WordsOfUnwords(tail);
      UnwordsCons(w, tail);
      WordsOfWordThenSpace(w, rest);
    }
  }

  /** Dropping whitespace distributes over concatenation. */
  lemma {:induction false} RemoveSpaceConcat(a: string, b: string)
    ensures RemoveSpace(a + b) == RemoveSpace(a) + RemoveSpace(b)
  {
    if a != [] {
      assert (a + b)[1..] == a[1..] + b;
      RemoveSpaceConcat(a[1..], b);
    } else {
      assert a + b == b;
    }
  }

  /** A string without whitespace loses nothing. */
  lemma {:induction false} RemoveSpaceOfWord(w: string)
    requires forall i :: 0 <= i < |w| ==> !IsSpace(w[i])
    ensures RemoveSpace(w) == w
  {
    if w != [] {
      RemoveSpaceOfWord(w[1..]);
    }
  }

  /** Skipped leading whitespace contributes nothing. */
  lemma {:induction false} RemoveSpaceSkipped(s: string)
    ensures RemoveSpace(SkipSpace(s)) == RemoveSpace(s)
  {
    if s != [] && IsSpace(s[0]) {
      RemoveSpaceSkipped(s[1..]);
    }
  }

  /** Tokenizing loses and invents no character: the words run together are
      exactly the non-whitespace characters of the input, in order. */
  lemma {:induction false} ConcatWords(s: string)
    ensures Concat(Words(s)) == RemoveSpace(s)
    decreases |s|
  {
    if SkipSpace(s) != [] {
      ConcatWords(AfterFirstWord(s));
      ConcatOfFirstWord(s);
      RemoveSpaceOfFirstWord(s);
    } else {
      RemoveSpaceSkipped(s);
      assert RemoveSpace([]) == [];
    }
  }

  /** The first word of a line that has one. */
  function FirstWordOf(s: string): string
    requires SkipSpace(s) != []
  {
    var t := SkipSpace(s);
    t[..WordRun(t)]
  }

  /** What follows the first word of a line, shorter than the line when it has a word. */
  function AfterFirstWord(s: string): (r: string)
    ensures SkipSpace(s) != [] ==> |r| < |s|
  {
    var t := SkipSpace(s);
    t[WordRun(t)..]
  }

  /** The words of a line run together: its first word, then those of the rest. */
  lemma ConcatOfFirstWord(s: string)
    requires SkipSpace(s) != []
    ensures Concat(Words(s)) == FirstWordOf(s) + Concat(Words(AfterFirstWord(s)))
  {
    FirstWord(s);
    ConcatCons(FirstWordOf(s), Words(AfterFirstWord(s)));
  }

  /** The non-whitespace characters of a line: its first word, then those of the rest. */
  lemma RemoveSpaceOfFirstWord(s: string)
    requires SkipSpace(s) != []
    ensures RemoveSpace(s) == FirstWordOf(s) + RemoveSpace(AfterFirstWord(s))
  {
    var t := SkipSpace(s);
    var w, r := FirstWordOf(s), AfterFirstWord(s);
    SplitAt(t, WordRun(t));
    RemoveSpaceSkipped(s);
    RemoveSpaceConcat(w, r);
    RemoveSpaceOfWord(w);
  }

  /** A string is its prefix followed by its suffix. */
  lemma SplitAt(t: string, k: nat)
    requires k <= |t|
    ensures t == t[..k] + t[k..]
  {
  }

  /** The words of a line with a word: that word, then the words after it. */
  lemma FirstWord(s: string)
    requires SkipSpace(s) != []
    ensures var t := SkipSpace(s); Words(s) == [t[..WordRun(t)]] + Words(t[WordRun(t)..])
  {
  }

  /** `Concat` of a list is its first word followed by `Concat` of the rest. */
  lemma ConcatCons(w: string, ws: seq<string>)
    ensures Concat([w] + ws) == w + Concat(ws)
  {
    assert ([w] + ws)[1..] == ws;
  }

  /** An empty or all-whitespace line is the command `""` with no arguments. */
  lemma BlankInput(input: string)
    requires forall i :: 0 <= i < |input| ==> IsSpace(input[i])
    ensures Split(input) == ([], [])
  {
    SkipAllSpace(input);
  }

  /** Skipping whitespace consumes a line that holds nothing else. */
  lemma {:induction false} SkipAllSpace(s: string)
    requires forall i :: 0 <= i < |s| ==> IsSpace(s[i])
    ensures SkipSpace(s) == []
  {
    if s != [] {
      SkipAllSpace(s[1..]);
    }
  }

  /** After `registerCommand(name, h)`, a line naming `name` runs `h` on the
      other words and answers true. */
  lemma RegisteredCommandRuns<H>(p: Parser<H>, name: string, h: H, args: seq<string>)
    requires IsWord(name)
    requires forall i :: 0 <= i < |args| ==> IsWord(args[i])
    ensures ParseAndExecute(RegisterCommand(p, name, h), Unwords([name] + args)) == Outcome(true, Some(Call(h, args)))
  {
    var ws := [name] + args;
    assert ws[1..] == args;
    WordsOfUnwords(ws);
  }

  /** Registering a name twice keeps only the later handler. */
  lemma LaterRegistrationWins<H>(p: Parser<H>, name: string, h1: H, h2: H)
    ensures RegisterCommand(RegisterCommand(p, name, h1), name, h2) == RegisterCommand(p, name, h2)
  {
  }

  /** An unregistered command word answers false and reaches the error
      handler, once, with just that word. */
  lemma UnknownCommandReachesErrorHandler<H>(p: Parser<H>, e: H, cmd: string, args: seq<string>)
    requires IsWord(cmd) && cmd !in p.commands
    requires forall i :: 0 <= i < |args| ==> IsWord(args[i])
    ensures ParseAndExecute(SetErrorHandler(p, Some(e)), Unwords([cmd] + args)) == Outcome(false, Some(Call(e, [cmd])))
  {
    WordsOfUnwords([cmd] + args);
  }

  /** Without an error handler an unregistered command answers false and calls nothing. */
  lemma UnknownCommandWithoutErrorHandler<H>(commands: map<string, H>, input: string)
    requires Split(input).0 !in commands
    ensures ParseAndExecute(Parser(commands, None), input) == Outcome(false, None)
  {
  }
}

=== FILE: Common.dfy ===
/** Vocabulary shared by every part of the model: 8-bit values, the 32-bit
    `int` range of the C++ source, and optional results. */
module Common {

  /** An `unsigned char` of the source. */
  type byte = x: int | 0 <= x < 256

  /** The range of the source's 32-bit `int`. */
  const IntMin: int := -0x8000_0000
  const IntMax: int := 0x7FFF_FFFF

  /** The C++ conversion `(unsigned char)v`: the one byte congruent to `v` modulo 256. */
  function ToByte(v: int): (b: byte)
    ensures (b - v) % 256 == 0
    ensures 0 <= v < 256 ==> b == v
  {
    v % 256
  }

  /** A value that may be absent: a failed read, a missing channel, an unopened file. */
  datatype Option<+T> = None | Some(value: T)
}

=== FILE: Led.dfy ===
/** One LED channel of the bank (src/LED.cpp): a fixed identity (id, peak
    wavelength, maximum radiation) and two byte-valued controls, the current
    intensity and the ceiling used by the randomizer. */
module LedChannel {
  import opened Common

  /** The wavelength fields are `float` in the source; every value the bank
      uses is integral, so exact reals stand for them. */
  datatype Led = Led(id: int, peak: real, maxRadiation: real, intensity: byte, maxIntensity: byte)

  /** Peak wavelength 0 marks an infrared channel. */
  predicate IsInfrared(l: Led) {
    l.peak == 0.0
  }

  /** The fields that only the constructor sets: the source has no setter for them. */
  predicate SameIdentity(a: Led, b: Led) {
    a.id == b.id && a.peak == b.peak && a.maxRadiation == b.maxRadiation
  }

  /** The two byte-valued controls a command can write. */
  datatype Level = Intensity | Ceiling

  /** A fresh channel: dark, with the full ceiling, except that an infrared
      channel also gets ceiling 0. */
  function NewLed(id: int, peak: real, maxRadiation: real): (l: Led)
    ensures l.id == id && l.peak == peak && l.maxRadiation == maxRadiation
    ensures l.intensity == 0
    ensures IsInfrared(l) ==> l.maxIntensity == 0
    ensures !IsInfrared(l) ==> l.maxIntensity == 255
  {
    var l := Led(id, peak, maxRadiation, 0, 255);
    if peak == 0.0 then l.(intensity := 0, maxIntensity := 0) else l
  }

  /** A plain store: no clamp against the ceiling. */
  function SetIntensity(l: Led, v: byte): (r: Led)
    ensures SameIdentity(l, r)
    ensures r.intensity == v && r.maxIntensity == l.maxIntensity
  {
    l.(intensity := v)
  }

  /** A plain store of the ceiling; the current intensity is kept even above it. */
  function SetMaxIntensity(l: Led, v: byte): (r: Led)
    ensures SameIdentity(l, r)
    ensures r.maxIntensity == v && r.intensity == l.intensity
  {
    l.(maxIntensity := v)
  }

  /** Writes one of the two controls. */
  function Store(l: Led, level: Level, v: byte): (r: Led)
    ensures SameIdentity(l, r)
    ensures level == Intensity ==> r == SetIntensity(l, v)
    ensures level == Ceiling ==> r == SetMaxIntensity(l, v)
  {
    match level
    case Intensity => SetIntensity(l, v)
    case Ceiling => SetMaxIntensity(l, v)
  }

  /** The value of one control. */
  function Read(l: Led, level: Level): byte {
    match level
    case Intensity => l.intensity
    case Ceiling => l.maxIntensity
  }

  /** `rand() % (maxIntensity + 1)`, with the value `rand()` returned passed in as `draw`. */
  function RandomizeIntensity(l: Led, draw: nat): (r: Led)
    ensures SameIdentity(l, r) && r.maxIntensity == l.maxIntensity
    ensures r.intensity <= l.maxIntensity
    ensures draw <= l.maxIntensity ==> r.intensity == draw
  {
    l.(intensity := draw % (l.maxIntensity + 1))
  }

  /** Storing a control and reading it back yields the stored byte, and the
      other control is untouched. */
  lemma StoreThenRead(l: Led, level: Level, other: Level, v: byte)
    ensures Read(Store(l, level, v), level) == v
    ensures other != level ==> Read(Store(l, level, v), other) == Read(l, other)
  {
  }

  /** Draws one full cycle apart give the same intensity: with the identity
      for draws up to the ceiling, this fixes the outcome of every draw. */
  lemma RandomizeIntensityPeriodic(l: Led, draw: nat)
    ensures RandomizeIntensity(l, draw + l.maxIntensity + 1) == RandomizeIntensity(l, draw)
  {
    ModShift(draw, l.maxIntensity as nat + 1);
  }

  /** Adding the modulus does not change the remainder. */
  lemma ModShift(d: nat, m: nat)
    requires m > 0
    ensures (d + m) % m == d % m
  {
    var q, r := d / m, d % m;
    assert d == q * m + r;
    assert d + m == (q + 1) * m + r;
    ModUnique(d + m, m, q + 1, r);
  }

  /** The remainder is the one `r` below `m` with `a == q * m + r`. */
  lemma ModUnique(a: nat, m: nat, q: nat, r: nat)
    requires m > 0 && r < m && a == q * m + r
    ensures a % m == r
  {
    var q', r' := a / m, a % m;
    assert a == q' * m + r';
    if q' < q {
      MulStep(q', q, m);
    } else if q < q' {
      MulStep(q, q', m);
    }
  }

  /** A larger factor adds at least one more `m`. */
  lemma {:induction false} MulStep(x: nat, y: nat, m: nat)
    requires x < y
    ensures x * m + m <= y * m
    decreases y - x
  {
    assert (x + 1) * m == x * m + m;
    if x + 1 < y {
      MulStep(x + 1, y, m);
    }
  }

  /** A channel whose ceiling is 0 always randomizes to 0. */
  lemma RandomizeUnderZeroCeiling(l: Led, draw: nat)
    requires l.maxIntensity == 0
    ensures RandomizeIntensity(l, draw).intensity == 0
  {
  }

  /** Every level from 0 up to the ceiling is the outcome of some draw, and
      none above it is. */
  lemma RandomizeReachesExactlyUpToCeiling(l: Led, level: int)
    ensures (exists draw: nat :: RandomizeIntensity(l, draw).intensity == level) <==> 0 <= level <= l.maxIntensity
  {
    if 0 <= level <= l.maxIntensity {
      assert RandomizeIntensity(l, level).intensity == level;
    }
  }

  /** A direct store may leave the intensity above the ceiling: nothing clamps it. */
  lemma SetIntensityDoesNotClamp(l: Led, v: byte)
    requires l.maxIntensity < v
    ensures SetIntensity(l, v).intensity > SetIntensity(l, v).maxIntensity
  {
  }
}

=== FILE: LedController.dfy ===
/** The bank of 30 LED channels (src/LEDController.cpp): the fixed table it
    is built from, lookup by id and by peak, randomization, the intensity
    snapshot sent on the wire, and the text file that persists the ceilings. */
module LedController {
  import opened Common
  import opened Text
  import opened LedChannel

  /** The channels in table order. */
  type Bank = seq<Led>

  /** The seed table: id, peak wavelength and maximum radiation of each
      channel, in bank order. Peak 0 is the infrared channel, 1..3 the red,
      green and blue channels, and -1 the white channel. */
  const Table: seq<(int, real, real)> := [
    (1, 405.0, 35000.0),
    (2, 430.0, 50000.0),
    (3, 450.0, 55000.0),
    (4, 490.0, 27500.0),
    (5, 505.0, 55000.0),
    (6, 525.0, 37500.0),
    (7, 545.0, 13000.0),
    (8, 570.0, 8500.0),
    (9, 590.0, 13000.0),
    (10, 610.0, 65000.0),
    (11, 625.0, 65000.0),
    (12, 645.0, 65000.0),
    (13, 660.0, 65000.0),
    (14, 680.0, 50000.0),
    (15, 750.0, 32500.0),
    (16, 770.0, 30000.0),
    (17, 800.0, 21000.0),
    (18, 870.0, 0.0),
    (19, 970.0, 0.0),
    (20, 1050.0, 0.0),
    (21, 1200.0, 0.0),
    (22, 1300.0, 0.0),
    (23, 1450.0, 0.0),
    (24, 1550.0, 0.0),
    (25, 1600.0, 0.0),
    (26, 0.0, 0.0),
    (27, 1.0, 0.0),
    (28, 2.0, 0.0),
    (29, 3.0, 0.0),
    (30, -1.0, -1.0)
  ]

  const Size: nat := 30

  /** A bank with the table's identities: position i holds id i + 1 with the
      table's peak and radiation. Every operation below keeps this shape. */
  predicate Shaped(b: Bank) {
    |b| == Size &&
    forall i :: 0 <= i < Size ==>
      b[i].id == Table[i].0 && b[i].peak == Table[i].1 && b[i].maxRadiation == Table[i].2
  }

  /** The constructor: one fresh channel per table entry, in table order. */
  function InitialBank(): (b: Bank)
    ensures Shaped(b)
    ensures forall i :: 0 <= i < |b| ==> b[i].id == i + 1
    ensures forall i :: 0 <= i < |b| ==> b[i].intensity == 0
    ensures forall i :: 0 <= i < |b| ==> b[i].maxIntensity == (if IsInfrared(b[i]) then 0 else 255)
  {
    seq(Size, i requires 0 <= i < Size => NewLed(Table[i].0, Table[i].1, Table[i].2))
  }

  /** Position of the first channel satisfying `p`, scanning in table order. */
  function FirstIndex(b: Bank, p: Led -> bool): (r: Option<nat>)
    ensures r.Some? ==> r.value < |b| && p(b[r.value])
    ensures r.Some? ==> forall j :: 0 <= j < r.value ==> !p(b[j])
    ensures r.None? ==> forall j :: 0 <= j < |b| ==> !p(b[j])
  {
    if b == [] then None
    else if p(b[0]) then Some(0)
    else match FirstIndex(b[1..], p)
      case None => None
      case Some(i) => Some(i + 1)
  }

  /** `getById`: the first channel with that id; `None` is the source's `out_of_range`. */
  function FindById(b: Bank, id: int): (r: Option<nat>)
    ensures r.Some? ==> r.value < |b| && b[r.value].id == id
    ensures r.Some? ==> forall j :: 0 <= j < r.value ==> b[j].id != id
    ensures r.None? ==> forall j :: 0 <= j < |b| ==> b[j].id != id
  {
    FirstIndex(b, (l: Led) => l.id == id)
  }

  /** `getByPeak`: the first channel whose peak equals `peak` exactly. */
  function FindByPeak(b: Bank, peak: real): (r: Option<nat>)
    ensures r.Some? ==> r.value < |b| && b[r.value].peak == peak
    ensures r.Some? ==> forall j :: 0 <= j < r.value ==> b[j].peak != peak
    ensures r.None? ==> forall j :: 0 <= j < |b| ==> b[j].peak != peak
  {
    FirstIndex(b, (l: Led) => l.peak == peak)
  }

  /** Writes one control of the channel at `i`; every other channel is kept. */
  function StoreAt(b: Bank, i: nat, level: Level, v: byte): (r: Bank)
    requires i < |b|
    ensures |r| == |b| && r[i] == Store(b[i], level, v)
    ensures forall j :: 0 <= j < |b| && j != i ==> r[j] == b[j]
  {
    b[i := Store(b[i], level, v)]
  }

  /** `getById(id).set…(v)` with the exception swallowed: an unknown id changes nothing. */
  function StoreById(b: Bank, id: int, level: Level, v: byte): (r: Bank)
    ensures |r| == |b|
    ensures forall i :: 0 <= i < |b| ==> SameIdentity(b[i], r[i])
    ensures level == Ceiling ==> forall i :: 0 <= i < |b| ==> r[i].intensity == b[i].intensity
    ensures level == Intensity ==> forall i :: 0 <= i < |b| ==> r[i].maxIntensity == b[i].maxIntensity
    ensures FindById(b, id).None? ==> r == b
    ensures FindById(b, id).Some? ==> r == StoreAt(b, FindById(b, id).value, level, v)
  {
    match FindById(b, id)
    case None => b
    case Some(i) => StoreAt(b, i, level, v)
  }

  /** `randomizeAll`: every channel that is not infrared draws a new
      intensity up to its ceiling; `draw(i)` is the value `rand()` returns
      for the channel at position i. */
  function RandomizeAll(b: Bank, draw: nat -> nat): (r: Bank)
    ensures |r| == |b|
    ensures forall i :: 0 <= i < |b| ==> SameIdentity(b[i], r[i]) && r[i].maxIntensity == b[i].maxIntensity
    ensures forall i :: 0 <= i < |b| && IsInfrared(b[i]) ==> r[i] == b[i]
    ensures forall i :: 0 <= i < |b| && !IsInfrared(b[i]) ==> r[i].intensity <= r[i].maxIntensity
    ensures forall i :: 0 <= i < |b| && !IsInfrared(b[i]) ==> r[i] == RandomizeIntensity(b[i], draw(i))
  {
    var r := seq(|b|, i requires 0 <= i < |b| => RandomizeUnlessInfrared(b[i], draw(i)));
    assert forall i :: 0 <= i < |b| ==> r[i] == RandomizeUnlessInfrared(b[i], draw(i));
    r
  }

  /** The body of the `randomizeAll` loop for one channel. */
  function RandomizeUnlessInfrared(l: Led, draw: nat): (r: Led)
    ensures SameIdentity(l, r) && r.maxIntensity == l.maxIntensity
    ensures IsInfrared(l) ==> r == l
    ensures !IsInfrared(l) ==> r.intensity <= r.maxIntensity
  {
    if IsInfrared(l) then l else RandomizeIntensity(l, draw)
  }

  /** `getIntensityData`: the intensities in table order. */
  function IntensityData(b: Bank): (d: seq<byte>)
    ensures |d| == |b|
    ensures forall i :: 0 <= i < |b| ==> d[i] == b[i].intensity
  {
    seq(|b|, i requires 0 <= i < |b| => b[i].intensity)
  }

  /** One line of the ceiling file: id, a space, the ceiling, a newline. */
  function PairLine(id: int, v: int): string {
    IntText(id) + " " + IntText(v) + "\n"
  }

  /** The whole ceiling file `saveMaxIntensities` writes, one line per channel in table order. */
  function SaveText(b: Bank): (s: string)
    ensures b == [] <==> s == []
    ensures LineCount(s) == |b|
    ensures s != [] ==> s[|s| - 1] == '\n'
  {
    if b == [] then []
    else
      var line := PairLine(b[0].id, b[0].maxIntensity);
      var rest := SaveText(b[1..]);
      PairLineIsOneLine(b[0].id, b[0].maxIntensity);
      LineCountConcat(line, rest);
      line + rest
  }

  /** The number of newline characters in `s`. */
  function LineCount(s: string): nat {
    if s == [] then 0 else (if s[0] == '\n' then 1 else 0) + LineCount(s[1..])
  }

  /** Newlines add up over concatenation. */
  lemma {:induction false} LineCountConcat(a: string, b: string)
    ensures LineCount(a + b) == LineCount(a) + LineCount(b)
  {
    if a != [] {
      assert (a + b)[1..] == a[1..] + b;
      LineCountConcat(a[1..], b);
    } else {
      assert a + b == b;
    }
  }

  /** Text without a newline character counts no line. */
  lemma {:induction false} NoLine(s: string)
    requires forall i :: 0 <= i < |s| ==> s[i] != '\n'
    ensures LineCount(s) == 0
  {
    if s != [] {
      NoLine(s[1..]);
    }
  }

  /** An `int` as `operator<<` writes it holds no newline. */
  lemma IntTextHasNoLine(n: int)
    ensures LineCount(IntText(n)) == 0
  {
    var d := Digits(if n < 0 then -n else n);
    assert forall i :: 0 <= i < |d| ==> d[i] != '\n' by {
      forall i | 0 <= i < |d| ensures d[i] != '\n' { assert IsDigit(d[i]); }
    }
    NoLine(IntText(n));
  }

  /** A saved line holds exactly one newline, at its end. */
  lemma PairLineIsOneLine(id: int, v: int)
    ensures LineCount(PairLine(id, v)) == 1
    ensures PairLine(id, v) != [] && PairLine(id, v)[|PairLine(id, v)| - 1] == '\n'
  {
    var a, c := IntText(id), IntText(v);
    IntTextHasNoLine(id);
    IntTextHasNoLine(v);
    assert LineCount(" ") == 0 by { NoLine(" "); }
    assert LineCount("\n") == 1;
    LineCountConcat(a, " ");
    LineCountConcat(a + " ", c);
    LineCountConcat(a + " " + c, "\n");
  }

  /** `saveMaxIntensities`: `writable` is whether the file could be opened
      for writing. The result is the file's new content, or `None` for the
      source's `false`. */
  function SaveMaxIntensities(b: Bank, writable: bool): (r: Option<string>)
    ensures r.Some? <==> writable
  {
    if writable then Some(SaveText(b)) else None
  }

  /** The read loop of `loadMaxIntensities`: while an id and a value can
      both be read, store the value, truncated to a byte, as the ceiling of
      the channel with that id; skip ids the bank does not have; stop at the
      first text that does not read as an integer. */
  function LoadText(b: Bank, s: string): (r: Bank)
    ensures |r| == |b|
    ensures forall i :: 0 <= i < |b| ==> SameIdentity(b[i], r[i]) && r[i].intensity == b[i].intensity
    decreases |s|
  {
    match ReadPair(s)
    case None => b
    case Some((id, v, rest)) =>
      var b1 := StoreById(b, id, Ceiling, ToByte(v));
      var r := LoadText(b1, rest);
      assert forall i :: 0 <= i < |b| ==> SameIdentity(b1[i], r[i]) && r[i].intensity == b1[i].intensity;
      r
  }

  /** `ifs >> id >> maxIntensity`: two integers and the unread rest, or
      `None` when either cannot be read. */
  function ReadPair(s: string): (r: Option<(int, int, string)>)
    ensures r.Some? ==> |r.value.2| < |s|
  {
    match ReadInt(s)
    case None => None
    case Some((id, s1)) =>
      match ReadInt(s1)
      case None => None
      case Some((v, s2)) => Some((id, v, s2))
  }

  /** `loadMaxIntensities`: `file` is the file's content, or `None` when it
      cannot be opened, the only case that reports `false`. */
  function LoadMaxIntensities(b: Bank, file: Option<string>): (r: (bool, Bank))
    ensures r.0 <==> file.Some?
    ensures !r.0 ==> r.1 == b
    ensures |r.1| == |b|
  {
    match file
    case None => (false, b)
    case Some(s) => (true, LoadText(b, s))
  }

  /** In a shaped bank the id `id` sits at position `id - 1`, and ids outside 1..30 are not found. */
  lemma ShapedFindById(b: Bank, id: int)
    requires Shaped(b)
    ensures FindById(b, id) == if 1 <= id <= Size then Some(id - 1) else None
  {
    assert forall i :: 0 <= i < Size ==> Table[i].0 == i + 1;
    if 1 <= id <= Size {
      assert b[id - 1].id == id;
    }
  }

  /** The table's peaks are pairwise distinct. */
  lemma TablePeaksDistinct()
    ensures forall i, j :: 0 <= i < j < Size ==> Table[i].1 != Table[j].1
  {
  }

  /** Every peak in the table is a whole number of nanometres. */
  lemma TablePeaksIntegral()
    ensures forall i :: 0 <= i < Size ==> Table[i].1 == Table[i].1.Floor as real
  {
  }

  /** In a shaped bank a peak with a fractional part matches no channel. */
  lemma ShapedFindFractionalPeak(b: Bank, peak: real)
    requires Shaped(b) && peak != peak.Floor as real
    ensures FindByPeak(b, peak).None?
  {
    TablePeaksIntegral();
    assert forall j :: 0 <= j < |b| ==> b[j].peak != peak;
  }

  /** In a shaped bank the peak of table entry `i` resolves to position `i`. */
  lemma ShapedFindByPeak(b: Bank, i: nat)
    requires Shaped(b) && i < Size
    ensures FindByPeak(b, Table[i].1) == Some(i)
  {
    TablePeaksDistinct();
    assert b[i].peak == Table[i].1;
  }

  /** The infrared channel (peak 0) is id 26 and the white channel (peak -1) is id 30. */
  lemma ShapedSpecialPeaks(b: Bank)
    requires Shaped(b)
    ensures FindByPeak(b, 0.0).Some? && b[FindByPeak(b, 0.0).value].id == 26
    ensures FindByPeak(b, -1.0).Some? && b[FindByPeak(b, -1.0).value].id == 30
  {
    ShapedFindByPeak(b, 25);
    ShapedFindByPeak(b, 29);
  }

  /** Writing a control by id in a shaped bank changes exactly channel `id - 1`,
      and nothing at all for an id outside 1..30; the bank stays shaped. */
  lemma ShapedStoreById(b: Bank, id: int, level: Level, v: byte)
    requires Shaped(b)
    ensures Shaped(StoreById(b, id, level, v))
    ensures 1 <= id <= Size ==> StoreById(b, id, level, v) == b[id - 1 := Store(b[id - 1], level, v)]
    ensures !(1 <= id <= Size) ==> StoreById(b, id, level, v) == b
  {
    ShapedFindById(b, id);
  }

  /** Randomizing keeps the bank shaped. */
  lemma RandomizeAllKeepsShape(b: Bank, draw: nat -> nat)
    requires Shaped(b)
    ensures Shaped(RandomizeAll(b, draw))
  {
  }

  /** Every pattern that keeps each non-infrared channel within its ceiling is
      produced by some sequence of draws: `randomizeAll` restricts nothing else. */
  lemma RandomizeAllReachesEveryPattern(b: Bank, target: seq<byte>)
    requires |target| == |b|
    requires forall i :: 0 <= i < |b| && !IsInfrared(b[i]) ==> target[i] <= b[i].maxIntensity
    ensures var r := RandomizeAll(b, (i: nat) => if i < |target| then target[i] else 0);
      forall i :: 0 <= i < |b| && !IsInfrared(b[i]) ==> r[i].intensity == target[i]
  {
  }

  /** Whitespace in front of the text changes nothing a load reads. */
  lemma {:induction false} LoadSkipsSpace(b: Bank, c: char, s: string)
    requires IsSpace(c)
    ensures LoadText(b, [c] + s) == LoadText(b, s)
  {
    ReadIntAfterSpace(c, s);
    assert ReadPair([c] + s) == ReadPair(s);
  }

  /** Loading one line `"<id> <v>\n"` stores `v` truncated to a byte as the
      ceiling of channel `id`, or skips the line when no channel has that
      id, and then goes on with the rest of the text. */
  lemma LoadLine(b: Bank, id: int, v: int, rest: string)
    requires IntMin <= id <= IntMax && IntMin <= v <= IntMax
    ensures LoadText(b, PairLine(id, v) + rest) == LoadText(StoreById(b, id, Ceiling, ToByte(v)), rest)
  {
    ReadPairOfLine(id, v, rest);
    LoadSkipsSpace(StoreById(b, id, Ceiling, ToByte(v)), '\n', rest);
  }

  /** The two integers of a saved line read back, leaving its newline unread. */
  lemma ReadPairOfLine(id: int, v: int, rest: string)
    requires IntMin <= id <= IntMax && IntMin <= v <= IntMax
    ensures ReadPair(PairLine(id, v) + rest) == Some((id, v, ['\n'] + rest))
  {
    ReadIdOfLine(id, v, rest);
    ReadValueOfLine(v, rest);
    ReadPairOfReads(PairLine(id, v) + rest, id, [' '] + IntText(v) + ['\n'] + rest, v, ['\n'] + rest);
  }

  lemma ReadIdOfLine(id: int, v: int, rest: string)
    requires IntMin <= id <= IntMax
    ensures ReadInt(PairLine(id, v) + rest) == Some((id, [' '] + IntText(v) + ['\n'] + rest))
  {
    var afterId := [' '] + IntText(v) + ['\n'] + rest;
    PairLineThen(id, v, rest);
    assert afterId[0] == ' ';
    ReadIntOfText(id, afterId);
  }

  /** A line followed by more text is the id's text and then everything after it. */
  lemma PairLineThen(id: int, v: int, rest: string)
    ensures PairLine(id, v) + rest == IntText(id) + ([' '] + IntText(v) + ['\n'] + rest)
  {
    LineThen(IntText(id), IntText(v), rest);
  }

  /** Regrouping a line `a b` followed by more text. */
  lemma LineThen(a: string, b: string, rest: string)
    ensures a + " " + b + "\n" + rest == a + ([' '] + b + ['\n'] + rest)
  {
  }

  lemma ReadValueOfLine(v: int, rest: string)
    requires IntMin <= v <= IntMax
    ensures ReadInt([' '] + IntText(v) + ['\n'] + rest) == Some((v, ['\n'] + rest))
  {
    var afterValue := IntText(v) + (['\n'] + rest);
    assert [' '] + IntText(v) + ['\n'] + rest == [' '] + afterValue;
    ReadIntAfterSpace(' ', afterValue);
    ReadIntOfText(v, ['\n'] + rest);
  }

  /** `ReadPair` is two `ReadInt`s in a row. */
  lemma ReadPairOfReads(s: string, id: int, s1: string, v: int, s2: string)
    requires ReadInt(s) == Some((id, s1)) && ReadInt(s1) == Some((v, s2))
    ensures ReadPair(s) == Some((id, v, s2))
  {
  }

  /** A line naming an id the bank does not have is skipped without ending the load. */
  lemma LoadSkipsUnknownId(b: Bank, id: int, v: int, rest: string)
    requires IntMin <= id <= IntMax && IntMin <= v <= IntMax
    requires FindById(b, id).None?
    ensures LoadText(b, PairLine(id, v) + rest) == LoadText(b, rest)
  {
    LoadLine(b, id, v, rest);
  }

  /** The load stops, keeping every ceiling, at the first word that is not an
      integer, whether it stands where an id or where a value belongs. */
  lemma LoadStopsAtWord(b: Bank, id: int, w: string)
    requires IntMin <= id <= IntMax
    requires w != [] && !IsSpace(w[0]) && !IsDigit(w[0]) && w[0] != '-' && w[0] != '+'
    ensures LoadText(b, w) == b
    ensures LoadText(b, IntText(id) + " " + w) == b
  {
    ReadIntOfWord(w);
    ReadIdBeforeWord(id, w);
    ReadIntAfterSpace(' ', w);
  }

  lemma ReadIdBeforeWord(id: int, w: string)
    requires IntMin <= id <= IntMax
    ensures ReadInt(IntText(id) + " " + w) == Some((id, [' '] + w))
  {
    assert IntText(id) + " " + w == IntText(id) + ([' '] + w);
    ReadIntOfText(id, [' '] + w);
  }

  /** Channel positions before `k` carry the ceilings of `source`, the others those of `target`. */
  function CeilingsUpTo(target: Bank, source: Bank, k: nat): (r: Bank)
    requires |source| == |target| && k <= |target|
    ensures |r| == |target|
  {
    seq(|target|, i requires 0 <= i < |target| =>
      if i < k then target[i].(maxIntensity := source[i].maxIntensity) else target[i])
  }

  /** Loading the lines saved from channels `k..` on top of a bank that
      already carries the first `k` ceilings completes the copy. */
  lemma {:induction false} LoadSavedSuffix(target: Bank, source: Bank, k: nat)
    requires Shaped(target) && Shaped(source) && k <= Size
    ensures LoadText(CeilingsUpTo(target, source, k), SaveText(source[k..])) == CeilingsUpTo(target, source, Size)
    decreases Size - k
  {
    if k == Size {
      LoadEmpty(CeilingsUpTo(target, source, k));
      assert source[k..] == [];
    } else {
      var l := source[k];
      SaveTextStep(source, k);
      LoadLine(CeilingsUpTo(target, source, k), l.id, l.maxIntensity, SaveText(source[k + 1..]));
      CeilingStep(target, source, k);
      LoadSavedSuffix(target, source, k + 1);
    }
  }

  /** Empty text loads nothing. */
  lemma LoadEmpty(b: Bank)
    ensures LoadText(b, []) == b
  {
    assert ReadPair([]).None?;
  }

  /** The saved text of channels `k..` is channel `k`'s line, then the rest. */
  lemma SaveTextStep(source: Bank, k: nat)
    requires Shaped(source) && k < Size
    ensures SaveText(source[k..]) == PairLine(k + 1, source[k].maxIntensity) + SaveText(source[k + 1..])
    ensures source[k].id == k + 1
  {
    ShapedId(source, k);
    var s := source[k..];
    assert s[0] == source[k];
    assert s[1..] == source[k + 1..];
  }

  /** In a shaped bank the channel at position `k` has id `k + 1`. */
  lemma ShapedId(b: Bank, k: nat)
    requires Shaped(b) && k < Size
    ensures b[k].id == k + 1
  {
    assert forall i :: 0 <= i < Size ==> Table[i].0 == i + 1;
  }

  /** Storing channel `k`'s saved ceiling extends the copied prefix by one channel. */
  lemma CeilingStep(target: Bank, source: Bank, k: nat)
    requires Shaped(target) && Shaped(source) && k < Size
    ensures StoreById(CeilingsUpTo(target, source, k), k + 1, Ceiling, ToByte(source[k].maxIntensity))
            == CeilingsUpTo(target, source, k + 1)
  {
    var x := CeilingsUpTo(target, source, k);
    assert Shaped(x);
    ShapedStoreById(x, k + 1, Ceiling, source[k].maxIntensity);
  }

  /** Round trip of the ceiling file: loading what `saveMaxIntensities`
      wrote for `source` into any shaped bank gives every channel the
      ceiling it had in `source` and changes nothing else. */
  lemma {:induction false} SaveLoadRoundTrip(target: Bank, source: Bank)
    requires Shaped(target) && Shaped(source)
    ensures var (ok, r) := LoadMaxIntensities(target, SaveMaxIntensities(source, true));
      ok && |r| == Size &&
      forall i :: 0 <= i < Size ==> r[i] == target[i].(maxIntensity := source[i].maxIntensity)
  {
    assert CeilingsUpTo(target, source, 0) == target;
    assert source[0..] == source;
    LoadSavedSuffix(target, source, 0);
  }
}

=== FILE: Text.dfy ===
/** The C library's text conversions that the source relies on: decimal
    printing by `operator<<`, integer reading by `istream >> int` and
    `std::stoi`, and decimal reading by `std::stof`. All of them work on
    plain `string`s here; whitespace is what `isspace` accepts in the C locale. */
module Text {
  import opened Common

  /** Space, tab, newline, vertical tab, form feed, carriage return. */
  predicate IsSpace(c: char) {
    c == ' ' || (9 <= c as int <= 13)
  }

  predicate IsDigit(c: char) {
    '0' <= c <= '9'
  }

  predicate AllDigits(s: string) {
    forall i :: 0 <= i < |s| ==> IsDigit(s[i])
  }

  function DigitValue(c: char): (d: nat)
    requires IsDigit(c)
    ensures d < 10
  {
    c as int - '0' as int
  }

  function DigitChar(d: nat): (c: char)
    requires d < 10
    ensures IsDigit(c) && DigitValue(c) == d
  {
    ('0' as int + d) as char
  }

  function Pow10(n: nat): (p: nat)
    ensures p >= 1
  {
    if n == 0 then 1 else 10 * Pow10(n - 1)
  }

  /** Drops the leading whitespace, as every formatted extraction does first. */
  function SkipSpace(s: string): (t: string)
    ensures |t| <= |s|
    ensures t == [] || !IsSpace(t[0])
    ensures forall i :: 0 <= i < |s| - |t| ==> IsSpace(s[i])
  {
    if s != [] && IsSpace(s[0]) then SkipSpace(s[1..]) else s
  }

  /** Length of the run of decimal digits at the start of `s`. */
  function DigitRun(s: string): (k: nat)
    ensures k <= |s|
    ensures forall i :: 0 <= i < k ==> IsDigit(s[i])
    ensures k == |s| || !IsDigit(s[k])
  {
    if s != [] && IsDigit(s[0]) then 1 + DigitRun(s[1..]) else 0
  }

  /** The number a string of decimal digits denotes, most significant digit first. */
  function DigitsValue(s: string): nat
    requires AllDigits(s)
  {
    if s == [] then 0 else 10 * DigitsValue(s[..|s| - 1]) + DigitValue(s[|s| - 1])
  }

  /** Decimal digits of a natural number, without leading zeros. */
  function Digits(n: nat): (s: string)
    ensures |s| >= 1 && AllDigits(s)
    ensures DigitsValue(s) == n
  {
    if n < 10 then
      [DigitChar(n)]
    else
      var p := Digits(n / 10);
      var s := p + [DigitChar(n % 10)];
      assert s[..|s| - 1] == p;
      s
  }

  /** An `int` as `operator<<` writes it: a minus sign for negatives, then decimal digits. */
  function IntText(n: int): (s: string)
  {
    if n < 0 then "-" + Digits(-n) else Digits(n)
  }

  /** True when the text starts with a minus sign. */
  predicate Negative(t: string) {
    t != [] && t[0] == '-'
  }

  /** The text after an optional leading sign. */
  function Unsigned(t: string): (u: string)
    ensures |u| <= |t|
  {
    if t != [] && (t[0] == '-' || t[0] == '+') then t[1..] else t
  }

  /** The magnitude of an integer. */
  function Abs(n: int): nat {
    if n < 0 then -n else n
  }

  /** The magnitude of a real. */
  function RealAbs(x: real): real {
    if x < 0.0 then -x else x
  }

  /** A magnitude with a sign applied. */
  function Signed(neg: bool, m: nat): int {
    if neg then -(m as int) else m
  }

  /** One integer read the way `istream >> int` and `std::stoi` read it:
      leading whitespace is skipped, then an optional sign and the longest run
      of decimal digits are consumed. It fails when no digit follows or the
      value does not fit a 32-bit `int`; otherwise it yields the value and the
      unread rest of the text. */
  function ReadInt(s: string): (r: Option<(int, string)>)
    ensures r.Some? ==> IntMin <= r.value.0 <= IntMax
    ensures r.Some? ==> |r.value.1| < |s|
  {
    ReadSigned(SkipSpace(s))
  }

  /** `ReadInt` once the leading whitespace is gone. */
  function ReadSigned(t: string): (r: Option<(int, string)>)
    ensures r.Some? ==> IntMin <= r.value.0 <= IntMax
    ensures r.Some? ==> |r.value.1| < |t|
  {
    var u := Unsigned(t);
    var k := DigitRun(u);
    if k == 0 then None
    else
      var v := Signed(Negative(t), DigitsValue(u[..k]));
      if v < IntMin || IntMax < v then None else Some((v, u[k..]))
  }

  /** The least magnitude `std::stof` rounds to infinity: the midpoint
      between `FLT_MAX`, (2 - 2^-23) * 2^127, and 2^128, which rounds to even,
      away from `FLT_MAX`. */
  const FloatOverflow: real := 340282356779733661637539395458142568448.0

  /** 2^24: every integer of at most this magnitude is a `float` exactly. */
  const FloatExactInts: nat := 0x100_0000

  /** `FLT_MIN`, 2^-126, the least normal `float`, written out exactly. */
  const FloatMin: real :=
    0.000000000000000000000000000000000000011754943508222875079687365372222456778186655567720875215087517062784172594547271728515625

  /** Whether `std::stof` can return the magnitude `m` without `strtof`
      reporting `ERANGE`: zero, or at least `FLT_MIN` and short of overflow. */
  predicate InFloatRange(m: real) {
    m == 0.0 || (FloatMin <= m && m < FloatOverflow)
  }

  /** One number read the way `std::stof` reads the plain decimal form:
      leading whitespace, an optional sign, digits and an optional fraction
      after a point, with at least one digit in all. The rest of the text is
      ignored, as `std::stof` ignores it. `None` when no digit is found and
      when the value lies outside the range of `float`, the two cases where
      `std::stof` throws. */
  function ReadReal(s: string): Option<real>
  {
    var t := SkipSpace(s);
    Negate(Negative(t), ReadMagnitude(Unsigned(t)))
  }

  /** A magnitude read, negated when a minus sign preceded it. */
  function Negate(neg: bool, r: Option<real>): Option<real> {
    if neg && r.Some? then Some(-r.value) else r
  }

  /** `ReadReal` after the whitespace and the sign. */
  function ReadMagnitude(u: string): Option<real>
  {
    match Decimal(u)
    case None => None
    case Some(m) => if InFloatRange(m) then Some(m) else None
  }

  /** The decimal number written at the head of `u` (digits, then optionally
      a point and more digits), before any check of range; `None` when it
      holds no digit at all. */
  function Decimal(u: string): Option<real>
  {
    var k := DigitRun(u);
    var rest := u[k..];
    var fraction := if rest != [] && rest[0] == '.' then rest[1..][..DigitRun(rest[1..])] else [];
    if k + |fraction| == 0 then None
    else Some(DigitsValue(u[..k]) as real + FractionValue(fraction))
  }

  /** `std::stof` returns a value exactly when the text after the blanks and
      the sign writes a decimal whose magnitude is zero or within the range
      of `float`; that value is the decimal, with the sign applied. Every
      other text throws. */
  lemma ReadRealInRange(s: string)
    ensures var d := Decimal(Unsigned(SkipSpace(s)));
      && (ReadReal(s).Some? <==> d.Some? && InFloatRange(d.value))
      && (ReadReal(s).Some? ==> RealAbs(ReadReal(s).value) == d.value && InFloatRange(d.value))
  {
  }

  /** The value of the digits after a decimal point. */
  function FractionValue(f: string): (v: real)
    requires AllDigits(f)
    ensures 0.0 <= v < 1.0
  {
    if f == [] then 0.0 else (DigitValue(f[0]) as real + FractionValue(f[1..])) / 10.0
  }

  /** The digit run of digits followed by a non-digit covers exactly those digits. */
  lemma {:induction false} DigitRunOfDigits(d: string, t: string)
    requires AllDigits(d)
    requires t == [] || !IsDigit(t[0])
    ensures DigitRun(d + t) == |d|
  {
    if d != [] {
      assert (d + t)[1..] == d[1..] + t;
      DigitRunOfDigits(d[1..], t);
    } else {
      assert d + t == t;
    }
  }

  /** A word of digits, a point at `p` and more digits reads as the integer
      part plus the fraction the later digits write. */
  lemma DecimalOfPoint(w: string, p: nat)
    requires 0 < p < |w| && w[p] == '.' && AllDigits(w[..p]) && AllDigits(w[p + 1..])
    ensures Decimal(w) == Some(DigitsValue(w[..p]) as real + FractionValue(w[p + 1..]))
  {
    DigitRunBeforePoint(w, p);
    DecimalAfterRun(w, p, w[p + 1..]);
  }

  /** The digit run of such a word stops at the point. */
  lemma DigitRunBeforePoint(w: string, p: nat)
    requires 0 < p < |w| && w[p] == '.' && AllDigits(w[..p])
    ensures DigitRun(w) == p && w[p..] == "." + w[p + 1..]
  {
    assert w[..p] + w[p..] == w;
    DigitRunOfDigits(w[..p], w[p..]);
  }

  /** `Decimal` once the digit run and the fraction after the point are known. */
  lemma DecimalAfterRun(u: string, k: nat, f: string)
    requires 0 < k == DigitRun(u) && AllDigits(f) && u[k..] == "." + f
    ensures Decimal(u) == Some(DigitsValue(u[..k]) as real + FractionValue(f))
  {
    var rest := u[k..];
    assert rest[0] == '.' && rest[1..] == f;
    DigitRunOfDigits(f, []);
    assert f + [] == f && f[..|f|] == f;
  }

  /** `std::stof` reads such a word as the decimal it writes, and throws when
      that is outside the range of `float`. */
  lemma ReadRealOfDecimal(w: string, p: nat)
    requires 0 < p < |w| && w[p] == '.' && AllDigits(w[..p]) && AllDigits(w[p + 1..])
    ensures var v := DigitsValue(w[..p]) as real + FractionValue(w[p + 1..]);
      ReadReal(w) == if InFloatRange(v) then Some(v) else None
  {
    DecimalOfPoint(w, p);
    assert w[0] == w[..p][0];
    ReadRealOfDecimalWord(w, DigitsValue(w[..p]) as real + FractionValue(w[p + 1..]));
  }

  /** Text that starts with a digit reads as the decimal it writes, when in range. */
  lemma ReadRealOfDecimalWord(u: string, v: real)
    requires u != [] && IsDigit(u[0]) && Decimal(u) == Some(v)
    ensures ReadReal(u) == if InFloatRange(v) then Some(v) else None
  {
    ReadRealOfUnsigned(u);
  }

  /** Text that starts with a digit carries no sign. */
  lemma UnsignedOfDigits(d: string, t: string)
    requires d != [] && AllDigits(d)
    ensures Unsigned(d + t) == d + t && !Negative(d + t)
  {
    assert IsDigit((d + t)[0]);
  }

  /** The digits of `n` followed by a non-digit read back as `n`. */
  lemma ReadSignedOfDigits(n: nat, t: string)
    requires n <= IntMax
    requires t == [] || !IsDigit(t[0])
    ensures ReadSigned(Digits(n) + t) == Some((n, t))
  {
    var d := Digits(n);
    var u := d + t;
    UnsignedOfDigits(d, t);
    DigitRunOfDigits(d, t);
    assert u[..|d|] == d;
    assert u[|d|..] == t;
  }

  /** A minus sign and the digits of `n`, followed by a non-digit, read back as `-n`. */
  lemma ReadSignedOfNegatedDigits(n: nat, t: string)
    requires n <= -IntMin
    requires t == [] || !IsDigit(t[0])
    ensures ReadSigned("-" + Digits(n) + t) == Some((-(n as int), t))
  {
    var d := Digits(n);
    var u := d + t;
    var s := "-" + d + t;
    assert s[1..] == u;
    DigitRunOfDigits(d, t);
    assert u[..|d|] == d;
    assert u[|d|..] == t;
  }

  /** Reading back what `operator<<` wrote yields the same `int`, and stops
      right after it whenever a non-digit follows. */
  lemma ReadIntOfText(n: int, t: string)
    requires IntMin <= n <= IntMax
    requires t == [] || !IsDigit(t[0])
    ensures ReadInt(IntText(n) + t) == Some((n, t))
  {
    var s := IntText(n) + t;
    if n < 0 {
      ReadSignedOfNegatedDigits(-n, t);
      assert s == "-" + Digits(-n) + t;
      assert s[0] == '-';
    } else {
      ReadSignedOfDigits(n, t);
      UnsignedOfDigits(Digits(n), t);
    }
    assert SkipSpace(s) == s;
  }

  /** Whitespace before an integer does not change what is read. */
  lemma ReadIntAfterSpace(c: char, s: string)
    requires IsSpace(c)
    ensures ReadInt([c] + s) == ReadInt(s)
  {
    assert ([c] + s)[1..] == s;
  }

  /** Text that starts with neither whitespace, a sign nor a digit holds no integer. */
  lemma ReadIntOfWord(w: string)
    requires w != [] && !IsSpace(w[0]) && !IsDigit(w[0]) && w[0] != '-' && w[0] != '+'
    ensures ReadInt(w) == None
  {
    assert SkipSpace(w) == w;
    assert Unsigned(w) == w;
  }

  /** Digits alone read as a plain decimal: their own value when it is in
      the range of `float`, and nothing otherwise. */
  lemma ReadMagnitudeOfDigits(n: nat)
    ensures ReadMagnitude(Digits(n)) == if InFloatRange(n as real) then Some(n as real) else None
  {
    var d := Digits(n);
    DigitRunOfDigits(d, []);
    assert d + [] == d;
    assert d[..|d|] == d;
    assert d[|d|..] == [];
  }

  /** Text that starts with a digit is read by `std::stof` as its magnitude. */
  lemma ReadRealOfUnsigned(u: string)
    requires u != [] && IsDigit(u[0])
    ensures ReadReal(u) == ReadMagnitude(u)
  {
    assert SkipSpace(u) == u;
    assert Unsigned(u) == u && !Negative(u);
  }

  /** A minus sign before text that starts with a digit negates its magnitude. */
  lemma ReadRealOfMinus(u: string)
    requires u != [] && IsDigit(u[0])
    ensures ReadReal("-" + u) == Negate(true, ReadMagnitude(u))
  {
    var s := "-" + u;
    assert s[0] == '-' && s[1..] == u;
    assert SkipSpace(s) == s;
    assert Unsigned(s) == u && Negative(s);
    assert ReadReal(s) == Negate(Negative(s), ReadMagnitude(Unsigned(s)));
  }

  /** `std::stof` of the text `operator<<` writes for a negative `int`: the
      reading of its digits, negated. */
  lemma ReadRealOfNegativeText(n: int)
    requires n < 0
    ensures ReadReal(IntText(n)) == Negate(true, ReadMagnitude(Digits(-n)))
  {
    var d := Digits(-n);
    assert IsDigit(d[0]);
    ReadRealOfMinus(d);
  }

  /** `std::stof` of the text `operator<<` writes for a non-negative `int`:
      the reading of its digits. */
  lemma ReadRealOfNaturalText(n: nat)
    ensures ReadReal(IntText(n)) == ReadMagnitude(Digits(n))
  {
    var d := Digits(n);
    assert IsDigit(d[0]);
    ReadRealOfUnsigned(d);
  }

  /** Digits of a natural number of at most 2^24 read as exactly that number. */
  lemma ReadMagnitudeOfExactDigits(m: nat)
    requires m <= FloatExactInts
    ensures ReadMagnitude(Digits(m)) == Some(m as real)
  {
    assert InFloatRange(m as real) by {
      if m != 0 {
        assert 1.0 <= m as real;
      }
    }
    ReadMagnitudeOfDigits(m);
  }

  /** `std::stof` of the decimal text of an integer of magnitude at most
      2^24 yields that integer exactly, since every such integer is a `float`. */
  lemma ReadRealOfText(n: int)
    requires Abs(n) <= FloatExactInts
    ensures ReadReal(IntText(n)) == Some(n as real)
  {
    if n < 0 {
      ReadRealOfNegativeExactText(n);
    } else {
      ReadMagnitudeOfExactDigits(n);
      ReadRealOfNaturalText(n);
    }
  }

  /** The text of a negative `n` of magnitude at most 2^24 reads as exactly `n`. */
  lemma ReadRealOfNegativeExactText(n: int)
    requires -(FloatExactInts as int) <= n < 0
    ensures ReadReal(IntText(n)) == Some(n as real)
  {
    var d := Digits(-n);
    ReadMagnitudeOfExactDigits(-n);
    assert IsDigit(d[0]);
    ReadRealOfMinusSome(d, (-n) as real);
  }

  /** A minus sign before digits whose magnitude reads as `x` reads as `-x`. */
  lemma ReadRealOfMinusSome(u: string, x: real)
    requires u != [] && IsDigit(u[0])
    requires ReadMagnitude(u) == Some(x)
    ensures ReadReal("-" + u) == Some(-x)
  {
    ReadRealOfMinus(u);
    NegateSome(ReadMagnitude(u), x);
  }

  /** Negating a magnitude that was read negates its value. */
  lemma NegateSome(r: Option<real>, x: real)
    requires r == Some(x)
    ensures Negate(true, r) == Some(-x)
  {
  }

  /** The decimal text of an integer too large for a `float` does not read:
      `std::stof` throws `std::out_of_range` for it. */
  lemma ReadRealOfHugeText(n: int)
    requires FloatOverflow <= Abs(n) as real
    ensures ReadReal(IntText(n)) == None
  {
    ReadMagnitudeOfDigits(Abs(n));
    if n < 0 {
      ReadRealOfNegativeText(n);
    } else {
      ReadRealOfNaturalText(n);
    }
  }
}
